=== FILE: README.md ===
# mongoose-failover in Dafny

A model of the two pieces of logic at the heart of mongoose-failover, a
leader election among peer processes over a shared MongoDB heartbeat
collection, with a work queue on top.

- **The election state machine** (`lib/failover.js`). It has five states:
  `init`, `master`, `slave`, `ticking` and `error`. Each state runs a
  heartbeat test under one of two driver strategies, `runOnce` or
  `runUntilChange`. The driver settles with a tri-state result (ERROR, FALSE
  or TRUE), and the state's trigger table maps that result to the next state.
  The `error` state is an overlay: on entry it takes over the table and the
  runner of the state that failed. The two tests work against the heartbeat
  store:
  - `masterTest` is an atomic find-fresh-or-insert.
  - `slaveTest` is a read-only find-fresh.
  - No-database test mode is meant to replace both with the counters
    `_masterTest` and `_slaveTest`. As the code stands it does not (see
    "## Findings"); the model keeps both wirings apart.
- **The managed failover** (`lib/managed.js`). This is a work-queue
  coordinator driven by the failover's own events:
  - `statechange` keeps a `master` flag.
  - `submitWork` appends to a backlog.
  - `work` drains the backlog through a caller-supplied worker while the
    peer is master.
  - `synchronize` prunes a slave's backlog up to the last item the master
    completed.

Modules, in dependency order:

- `Wrappers` (`wrappers.dfy`): `Option`.
- `Values` (`values.dfy`): the JavaScript scalars that task ids and
  identifiers take. It covers:
  - strict and loose (`==`) equality;
  - the decimal spelling of numbers. The schema stores `identifier` as a
    String, so a numeric id comes back from the store as its spelling.
- `Election` (`election.dfy`): the results, the state objects, the trigger
  tables, the error overlay and the two drivers, as functions of runner
  outcomes.
- `Heartbeat` (`heartbeat.dfy`): the store as a sequence of records, and the
  four runners.
- `Failover` (`failover.dfy`): the running machine. It covers `switch`, one
  runner invocation seen through the running state's driver (`Advance`), and
  one timer firing of a peer against the store or, with the intended
  no-database wiring, the counter (`TickPeer`). `TickPeerAsWritten` is a
  firing as the code stands, which never reaches the counter.
- `WorkQueue` (`workqueue.dfy`): the coordinator. It covers `submitWork`,
  `work`, one worker settlement, the handlers and `sync`, plus the drain
  loop as a method over a script of settlements.
- `Managed` (`managed.dfy`): one peer with its coordinator, reacting to timer
  firings, submissions and worker settlements. It also shows how a completion
  travels from the master to the slaves.

Behaviours of the code that are easy to miss:

- **A completed item while not master is dropped.** When the worker resolves
  true but the peer is no longer master, the item is neither put back nor
  synchronized (`lib/managed.js:53-56`). See `WorkQueue.Settle`.
- **The master's heartbeat is never refreshed.** `masterTest` only sets
  fields on insert (`lib/failover.js:63`), so a fresh record is never
  modified. A master inserts a new record once its last one has gone stale.
  See `Heartbeat.MasterTestOn` and `Managed.MasterPublishes`.
- **Completions reach the slaves only through the heartbeat.** A completion
  does not emit `synchronize` to other peers. It sets the master's payload
  identifier (`lib/failover.js:186-188`). The next inserted heartbeat
  carries that identifier as a string, and slaves adopt it. This is why
  `sync` compares with loose `==`. See `Managed.CompletionReachesSlave`.
- **Becoming master does not start a drain.** Only `submitWork` does. See
  `Managed.IdleUnlessSubmittedToMaster`.
- **On a slave, for a non-null id, a repeated `sync(id)` is a no-op only
  when at most one queued id matches.** With two matches it prunes again. On
  a master, or for null, every `sync` is a no-op. See
  `WorkQueue.SyncIdempotent` and `WorkQueue.SyncPrunesAgainOnDuplicates`.

Timers become explicit inputs, each `Tick` carrying the clock reading and
whether the store call fails. The worker's settlements are inputs as well,
as is the `member` string (host name and pid). Events are delivered to the
handlers synchronously, in emission order.

## Model

| member | source | states |
|---|---|---|
| Values.StoredIdentifier | lib/failover.js:14 | a numeric identifier is stored as its decimal spelling, which reads back as the number; `undefined` and null are stored as null; strings are stored unchanged; nothing is stored as `undefined` |
| Values.NumberSpellingRoundTrip | lib/failover.js:14 | converting the stored decimal spelling of a number back with `ToNumber` gives the number |
| Values.NumberMatchesStoredForm | lib/managed.js:76 | a number is loosely equal to the stored form of a number exactly when the two numbers are equal |
| Election.Describe | lib/failover.js:207-211 | only `init` has no declared value; the declared values are tri-state; every `runUntilChange` state declares one; only `error` lacks a runner until it is entered |
| Election.TablesTotal | lib/failover.js:213-216 | each non-error table is defined on exactly ERROR, FALSE and TRUE; ERROR leads to `error`; no table leads back to `init` |
| Election.MasterOnlyFromTickingOrMaster | lib/failover.js:212-216 | a table leads to `master` exactly for `ticking` or `master` on TRUE; `init` on TRUE leads to `ticking` |
| Election.EnterOverlay | lib/failover.js:136-140 | entering `error` from a normal state copies exactly that state's triggers and runner |
| Election.RunOnceDriver | lib/failover.js:81-87 | always settles with a tri-state result; ERROR exactly on rejection, recording the fault; otherwise `~~result` with no fault recorded |
| Election.Verdict | lib/failover.js:98-109 | a result settles iff it differs from the declared value; a rejection settles iff the state is not ERROR, recording the fault; a settlement never equals the declared value |
| Election.RunUntilChangeDriver | lib/failover.js:95-112 | settles on the first invocation whose verdict settles, and on no later one; with no such invocation it keeps running |
| Election.ErrorStateIgnoresFaults | lib/failover.js:103-108 | in `error`, the driver settles iff some invocation resolves; every earlier invocation was a rejection; no fault is recorded |
| Election.TrueStatesSettleOnFalseOrFault | lib/failover.js:99-108 | in `master` and `slave`, the driver settles iff some outcome is not `true`; all earlier outcomes were `true`; the result is ERROR iff the deciding outcome was a rejection |
| Heartbeat.FindFresh | lib/failover.js:41 | returns the first record of the group with `lastSeen > now - MASTER`, or none iff there is no such record |
| Heartbeat.MasterTestOn | lib/failover.js:59-69 | inserts only when no record is fresh and leaves an existing fresh record unmodified; resolves true iff the resulting record is this peer's; emits `synchronize` with its identifier only then; a fault writes nothing |
| Heartbeat.SlaveTestOn | lib/failover.js:37-50 | never writes; resolves true iff a fresh record exists; adopts and emits its identifier iff it differs strictly from the payload's |
| Heartbeat.MasterTestKeepsOneFresh | lib/failover.js:63 | with a clock that does not go back, at most one record per group stays fresh |
| Heartbeat.MasterTestIdempotent | lib/failover.js:63 | repeating `masterTest` at the same time leaves the store, the result and the events as they were |
| Heartbeat.SlaveTestAdoptsOnce | lib/failover.js:43-46 | after adopting, a second `slaveTest` on the same store adopts and emits nothing |
| Heartbeat.InitRaceBothWinThenEarlierLoses | lib/failover.js:143-154 | for one ordering of the start-up race: two peers at least one master interval apart both win their first test, and the earlier peer's next test, run within the later record's window, loses without writing |
| Failover.Switch | lib/failover.js:189-194 | sets the numeric state to the declared value; emits exactly `statechange(old, new)` and then the new state's event carrying the old state's error; entering `error` copies the old state's table and runner |
| Failover.Start | lib/failover.js:181-185 | `run()` enters `init` from `boot` with the two events, carrying no error |
| Failover.Drive | lib/failover.js:207-211 | `init` and `ticking` settle on every invocation; `master` and `slave` settle iff the outcome is not `true`; `error` settles iff the runner resolves, never on a rejection |
| Failover.Advance | lib/failover.js:194-202 | no settlement changes nothing; on settlement the fault is recorded in the running state; an unknown result panics and halts; otherwise it switches with `statechange` first |
| Failover.AdvanceAnnouncesFault | lib/failover.js:193 | the new state's event carries the fault just recorded, or the old state's earlier error |
| Failover.AdvanceKeepsHealthy | lib/failover.js:195-199 | a healthy machine stays healthy and never emits a panic |
| Failover.NeverPanics | lib/failover.js:195-199 | no sequence of runner outcomes makes a healthy machine panic |
| Failover.StartIsHealthy | lib/failover.js:184 | the machine `run()` starts is healthy |
| Failover.MasterEnteredOnlyFromTicking | lib/failover.js:212-216 | a switch to `master` comes from `ticking`, or from `error` holding the table of `ticking` or `master` |
| Failover.ErrorRecoveryUsesOriginTable | lib/failover.js:136-140 | a failure in state S enters `error` with S's table and announces the fault; further faults are ignored; a boolean result goes where S's table says |
| Failover.InitErrorThenTrueGoesToTicking | lib/failover.js:213 | from `init`, a failure followed by TRUE leads to `ticking` |
| Failover.UntilChangeAgreesWithDriver | lib/failover.js:95-112 | under `runUntilChange` the machine stays silent until the driver's deciding invocation, then switches to the state the active table gives |
| Failover.NewPayload | lib/failover.js:163-169 | the payload keeps the name and member; its identifier is null iff the given one is falsy, and is otherwise the given one |
| Failover.Invoke | lib/failover.js:37-76 | with the counters bound as `init` intends (see Findings), a no-database runner touches only the counter, emits nothing and never rejects; the store runners leave the counter alone; `slaveTest` never writes |
| Failover.TickPeer | lib/failover.js:97-98 | a halted peer does nothing; a timer firing never changes the payload's name or member |
| Failover.TickPeerRunnerFirst | lib/failover.js:65 | a firing emits the runner's `synchronize` events first and the switch after them, and the machine ends as the driver makes it for the runner's outcome |
| Failover.TickPeerAsWritten | lib/failover.js:207-210 | as the code stands, a firing never touches the no-database counter, whatever `nodb` says |
| Failover.NodbStartupAsWritten | lib/failover.js:227-230 | with `nodb` set, the first firing from `init` calls the store's `masterTest` exactly as without `nodb`, never the counter, and the counter stays put; with the intended wiring the same firing makes no store call and moves the counter. The model's store answers every call; the program's call goes to a connection `run()` never opened in this mode |
| Failover.TickKeepsHealthy | lib/failover.js:195-199 | a timer firing keeps a healthy peer healthy and emits no panic, whatever the store does |
| Failover.NodbMasterHoldsUntilFive | lib/failover.js:71-76 | with the counters bound as intended, `master` holds while the counter is below 5, then switches to `slave` with the counter at 6 |
| Failover.NodbSlaveHoldsUntilZero | lib/failover.js:52-57 | with the counters bound as intended, `slave` holds while the counter is positive, then switches to `ticking` with the counter at -1 |
| Failover.NodbStartup | lib/failover.js:71-76 | with the counters bound as intended, from `init` with the counter at 0, `init` and `ticking` win and the peer is `master` |
| Failover.NodbSlaveToMaster | lib/failover.js:52-76 | with the counters bound as intended, `slave` returns to `master` through `ticking` with the counter back at 0 |
| Failover.NodbMasterCycle | lib/failover.js:52-76 | with the counters bound as intended, one period runs `master`, `slave`, `ticking`, `master` |
| Failover.NodbScript | lib/failover.js:52-76 | with the counters bound as intended, fourteen firings from `init` enter ticking, master, slave, ticking and master |
| WorkQueue.Work | lib/managed.js:37-46 | a no-op while locked; otherwise hands the head item to the worker, taking the lock iff the queue is non-empty; nothing is lost or reordered |
| WorkQueue.SubmitWork | lib/managed.js:31-36 | the backlog gains exactly `{key(task), task}` at its tail; the worker starts iff the peer is master; a slave's coordinator changes only by the append |
| WorkQueue.Settle | lib/managed.js:46-69 | false or rejected puts the item back at the head and stops; true while not master drops it and stops; true while master synchronizes its id and moves on to the next item; a throwing worker call loses the item and releases the lock |
| WorkQueue.OnStateChange | lib/managed.js:24-26 | the flag becomes whether the new state is `master`; the queue and the drain are untouched |
| WorkQueue.FirstMatch | lib/managed.js:75-76 | finds the first queued item whose id is loosely equal to the given id, or none iff no item matches |
| WorkQueue.Sync | lib/managed.js:71-82 | ignored while master or for null; otherwise drops the prefix through the first loose match, or changes nothing when nothing matches |
| WorkQueue.Deliver | lib/managed.js:24-29 | the handlers never touch the drain |
| WorkQueue.SyncIdempotent | lib/managed.js:71-82 | when at most one queued id matches, a second `sync(id)` is a no-op |
| WorkQueue.SyncPrunesAgainOnDuplicates | lib/managed.js:72-79 | on a slave, for a non-null id, whenever two queued ids loosely match it, a second `sync(id)` shortens the queue again |
| WorkQueue.SyncExample | lib/managed.js:71-82 | on a slave, `sync(c.id)` on `[a, b, c, d]` leaves `[d]`; a master and `sync(null)` leave the queue alone |
| WorkQueue.DeliverAppend | lib/managed.js:24-29 | handling two event sequences one after the other is handling their concatenation |
| WorkQueue.Drain | lib/managed.js:37-70 | items go to the worker in FIFO order over the backlog plus mid-drain arrivals; the completed ids are the dispatched items' ids less at most the last; every settlement before the last was a completion while master, and the completed count is the number of settlements used, less one when the last did not complete; the lock is still held only after a completion; what remains is the rest, past a dropped item; an item is dropped exactly when the last settlement was a throw or a completion after the peer lost `master`; each resumption that keeps the lock hands out one more item, and the drain stops after a completion only on an empty queue; the lock is held only while the script runs out |
| Managed.Launch | lib/managed.js:17-23 | `new managed` and `run()` give a healthy `init` machine with a null identifier and the coordinator as constructed, its flag in step |
| Managed.Handle | lib/managed.js:24-36 | a timer firing never starts or stops the worker; a submission touches only the coordinator; a completion while master sets the payload identifier to the item's id |
| Managed.FlagAfterAdvance | lib/managed.js:24-26 | after a step's events, the flag agrees with the machine's state |
| Managed.HandleKeepsTracks | lib/managed.js:24-26 | every input keeps the flag equal to "the machine is in `master`" |
| Managed.IdleUnlessSubmittedToMaster | lib/managed.js:35 | a non-master peer with an idle worker is still idle after any input |
| Managed.MasterPublishes | lib/failover.js:63-65 | a master whose record went stale inserts one with its identifier and emits `synchronize`, which its own handler ignores |
| Managed.PromotionPrunesOwnBacklog | lib/managed.js:72 | a `ticking` peer winning its heartbeat handles its own `synchronize` while the flag is still false, pruning its backlog through its own identifier, and only then becomes master |
| Managed.SlaveAdopts | lib/failover.js:43-45 | a slave finding a fresh record with another identifier adopts it, emits it, and prunes its backlog with it |
| Managed.SyncOnStoredNumber | lib/managed.js:76 | a slave whose ids are numbers, given the stored form of `k`, drops the prefix through the first item numbered `k` |
| Managed.CompletionReachesSlave | lib/managed.js:58 | a master's completion of item `k` reaches a slave through the next heartbeat, and the slave drops its backlog through item `k` |

## Findings

| source | as written | input that shows it | evidently intended | confidence | as-written member | corrected member |
|---|---|---|---|---|---|---|
| lib/failover.js:227-230 | `init` rebinds the module names `masterTest` and `slaveTest`, but the state objects captured the store tests when the module loaded (207-210) and keep them, so the counter tests are never called | `init({nodb: true})`, then `run()`: the first `init` firing calls the store's `masterTest` instead of `_masterTest`, on a connection `run()` never opened, so the counter stays 0 and the counter cycle never starts | with `nodb` set every state runs `_masterTest` and `_slaveTest`, giving the counter-driven cycle through ticking, master, slave and ticking | high; not executed | Failover.NodbStartupAsWritten | Failover.NodbScript |

The rest of the model uses the intended wiring (`Failover.TickPeer` with its `nodb` flag); with `nodb` false both wirings coincide.

## Left out

- WorkQueue.Drain: a `synchronize` handled while the worker runs and the flag is down would prune the queue mid-drain (`lib/managed.js:72-78`). A `WorkQueue.DrainStep` carries only arrivals, the flag and the settlement, so the drain's contract does not cover that pruning; `Managed.Handle` does, one event at a time.
- Timers and concurrency. `setTimeout` and `setInterval` become explicit `Tick` inputs, one invocation at a time. The overlapping invocations that `runUntilChange` allows are not modelled, so "the first one to return wins" is the first one in script order.
- The heartbeat store is abstract: a sequence of records with find-fresh and atomic find-or-insert. The mongoose schema, the TTL index, `lib/db.js` and the connection events are not part of this model. The store's expiry of old records is not modelled; it does not change which record is fresh.
- A store call that fails is taken to have written nothing.
- `init(options)`: interval overrides are configuration. The only option modelled is the no-database switch, as the `nodb` flag.
- Values.StoredIdentifier: ids are null, `undefined`, integers or strings. Boolean and object ids (an ObjectId `_id` as key, which the String schema stores through its `toString`) are not modelled.
- In no-database mode as written, the store tests run on a connection `run()` never opened (`lib/failover.js:182`). The model gives those calls the same abstract store as any other; what the driver does with calls on an unopened connection is not modelled.
- The state objects are module-level singletons (`lib/failover.js:18`, 207-211), so the error overlay and every state's `error` field are shared by all failover instances in one process. Each `Failover.Machine` holds its own copy; interleaved instances in one process are not modelled.
- Entering `error` emits the event named `error` (`lib/failover.js:193`). With no listener the emitter throws it before the state is entered, and the machine stops. The model treats every event as delivered to listeners that return.
- The event emitter, the `co` generator runner and the debug logging. Handlers are synchronous and run in emission order. A worker call that throws is modelled by its effect (`WorkQueue.Threw`): the item is lost and the lock released.
- The `error` event that the constructor forwards from connection errors.
- The panic on an unknown next state emits on the class rather than the instance (`lib/failover.js:196`). It is modelled as a `Panic` event that halts the machine, and is shown unreachable for a healthy machine.
- The panic on a rejected `enter` (`lib/failover.js:200-202`) is not modelled: the drivers never reject.
- Values.StringToNumber: covers the empty string, an optional sign and decimal digits. Other spellings (hexadecimal, exponents, decimals, surrounding white space) are treated as NaN. Such strings arise only when task ids mix strings and numbers (a string id such as `"1e3"` is stored and published unchanged); then the model's `sync` may prune less than the program, since JavaScript's `1000 == "1e3"` holds and `Values.LooseEquals(Num(1000), Str("1e3"))` does not.
- Values.NumberToString: numbers are integers. Fractions and magnitudes of 1e21 or more, which JavaScript spells differently, are not covered.
- Failover.NodbScript: starts from any healthy peer in `init`, which is where `Failover.Start` leaves it (`Failover.StartIsHealthy`). It does not restate the script from `Start()` itself.
- Dates are integer milliseconds of one shared clock.
- `index.js` and the sample programs are wiring and demos, not part of this model.

=== FILE: election.dfy ===
/**
 * The static part of the election state machine: the tri-state runner
 * results, the five state objects with their declared values, intervals,
 * driver strategies and runners, the four trigger tables, the error overlay,
 * and the two driver strategies `runOnce` and `runUntilChange` as functions of
 * the runner's outcomes.
 */
module Election {
  import opened Wrappers
  import opened Values

  /** Runner results (`STATES`). Drivers settle with one of these numbers. */
  const ERROR: int := -1
  const FALSE: int := 0
  const TRUE: int := 1

  predicate IsTriState(x: int) {
    x == ERROR || x == FALSE || x == TRUE
  }

  /** Renewal intervals in milliseconds (`INTERVALS`); configuration only. */
  const INTERVAL_INIT: nat := 0
  const INTERVAL_MASTER: nat := 2000
  const INTERVAL_SLAVE: nat := 2500
  const INTERVAL_TICKING: nat := 2000
  const INTERVAL_ERROR: nat := 5000

  datatype StateName = Init | Master | Slave | Ticking | Error

  datatype Strategy = RunOnce | RunUntilChange

  datatype Runner = MasterTest | SlaveTest

  /** An error value a runner rejects with (a store failure). */
  datatype Fault = Fault(message: string)

  /** How one runner invocation settles: a boolean, or a rejection. */
  datatype Outcome = Resolved(value: bool) | Rejected(fault: Fault)

  /**
   * Events the failover emits, in emission order. `from == None` is the
   * pseudo state `boot` that `run()` switches away from.
   */
  datatype Event =
    | StateChange(from: Option<StateName>, to: StateName)
    | Entered(name: StateName, error: Option<Fault>)
    | Synchronize(id: Value)
    | Panic(on: StateName, result: int)

  /** The constant part of a state object; `runner == None` is "assigned at runtime". */
  datatype Descriptor = Descriptor(
    name: StateName,
    declared: Option<int>,
    interval: nat,
    starter: Strategy,
    runner: Option<Runner>)

  /** The state objects as constructed. */
  function Describe(s: StateName): (d: Descriptor)
    ensures d.name == s
    ensures d.declared.None? <==> s == Init
    ensures d.declared.Some? ==> IsTriState(d.declared.value)
    ensures d.starter == RunUntilChange ==> d.declared.Some?
    ensures d.runner.None? <==> s == Error
  {
    match s
    case Init => Descriptor(Init, None, INTERVAL_INIT, RunOnce, Some(MasterTest))
    case Master => Descriptor(Master, Some(TRUE), INTERVAL_MASTER, RunUntilChange, Some(MasterTest))
    case Slave => Descriptor(Slave, Some(TRUE), INTERVAL_SLAVE, RunUntilChange, Some(SlaveTest))
    case Ticking => Descriptor(Ticking, Some(FALSE), INTERVAL_TICKING, RunOnce, Some(MasterTest))
    case Error => Descriptor(Error, Some(ERROR), INTERVAL_ERROR, RunUntilChange, None)
  }

  /** A trigger table maps a runner result to the next state. */
  type Table = map<int, StateName>

  /** The trigger tables set at start-up; the error state's table is empty until it is entered. */
  function Triggers(s: StateName): Table {
    match s
    case Init => map[TRUE := Ticking, FALSE := Slave, ERROR := Error]
    case Master => map[TRUE := Master, FALSE := Slave, ERROR := Error]
    case Slave => map[TRUE := Slave, FALSE := Ticking, ERROR := Error]
    case Ticking => map[TRUE := Master, FALSE := Slave, ERROR := Error]
    case Error => map[]
  }

  ghost predicate Total(t: Table) {
    forall r :: IsTriState(r) ==> r in t
  }

  /** `triggers[result]`: `None` is the "unknown next state" branch. */
  function Lookup(t: Table, result: int): (next: Option<StateName>)
    ensures next.Some? <==> result in t
    ensures next.Some? ==> next.value == t[result]
  {
    if result in t then Some(t[result]) else None
  }

  /** Every table of a non-error state is defined on exactly the three results and sends ERROR to `error`. */
  lemma TablesTotal(s: StateName)
    requires s != Error
    ensures Total(Triggers(s))
    ensures Triggers(s).Keys == {ERROR, FALSE, TRUE}
    ensures Triggers(s)[ERROR] == Error
    ensures forall r :: r in Triggers(s) ==> Triggers(s)[r] != Init
  {
  }

  /**
   * Only the `ticking` and `master` tables lead to `master`, and only on TRUE;
   * in particular a successful `init` goes to `ticking`, never to `master`.
   */
  lemma MasterOnlyFromTickingOrMaster(s: StateName, r: int)
    ensures r in Triggers(s) && Triggers(s)[r] == Master <==> (s == Ticking || s == Master) && r == TRUE
    ensures s == Init && r == TRUE ==> Triggers(s)[r] == Ticking
  {
  }

  /**
   * The runtime part of the error state object: the triggers and runner it
   * copies from the state it is entered from.
   */
  datatype Overlay = Overlay(triggers: Table, runner: Option<Runner>)

  const Unassigned: Overlay := Overlay(map[], None)

  /** The triggers a state object currently holds. */
  function ActiveTriggers(s: StateName, ov: Overlay): Table {
    if s == Error then ov.triggers else Triggers(s)
  }

  /** The runner a state object currently holds. */
  function ActiveRunner(s: StateName, ov: Overlay): Option<Runner> {
    if s == Error then ov.runner else Describe(s).runner
  }

  /** The overlay holds exactly what state `s` holds. */
  predicate CopiedFrom(ov: Overlay, s: StateName) {
    ov.triggers == Triggers(s) && ov.runner == Describe(s).runner
  }

  predicate IsNormalOverlay(ov: Overlay) {
    CopiedFrom(ov, Init) || CopiedFrom(ov, Master) || CopiedFrom(ov, Slave) || CopiedFrom(ov, Ticking)
  }

  /** `errorState.enter(failover, old)`: copy the old state's triggers and runner. */
  function EnterOverlay(ov: Overlay, origin: StateName): (r: Overlay)
    ensures origin != Error ==> CopiedFrom(r, origin)
    ensures origin == Error ==> r == ov
  {
    Overlay(ActiveTriggers(origin, ov), ActiveRunner(origin, ov))
  }

  /** `~~result` for the booleans the runners resolve with. */
  function ToTri(b: bool): int {
    if b then TRUE else FALSE
  }

  /**
   * What a driver resolves with: the tri-state result, and the error it
   * stored in the state object's `error` field (`None`: the field is untouched).
   */
  datatype Settlement = Settlement(result: int, recorded: Option<Fault>)

  /** `runOnce`: the single invocation always settles. */
  function RunOnceDriver(o: Outcome): (s: Settlement)
    ensures IsTriState(s.result)
    ensures s.result == ERROR <==> o.Rejected?
    ensures o.Resolved? ==> s.result == ToTri(o.value) && s.recorded.None?
    ensures o.Rejected? ==> s.recorded == Some(o.fault)
  {
    match o
    case Resolved(b) => Settlement(ToTri(b), None)
    case Rejected(f) => Settlement(ERROR, Some(f))
  }

  /**
   * One invocation under `runUntilChange` for a state whose declared value is
   * `declared`: `None` means the interval keeps running.
   */
  function Verdict(declared: Option<int>, o: Outcome): (v: Option<Settlement>)
    ensures v.Some? ==> IsTriState(v.value.result) && Some(v.value.result) != declared
    ensures o.Resolved? ==> (v.Some? <==> Some(ToTri(o.value)) != declared)
    ensures o.Resolved? && v.Some? ==> v.value == Settlement(ToTri(o.value), None)
    ensures o.Rejected? ==> (v.Some? <==> declared != Some(ERROR))
    ensures o.Rejected? && v.Some? ==> v.value == Settlement(ERROR, Some(o.fault))
  {
    match o
    case Resolved(b) => if Some(ToTri(b)) != declared then Some(Settlement(ToTri(b), None)) else None
    case Rejected(f) => if declared != Some(ERROR) then Some(Settlement(ERROR, Some(f))) else None
  }

  /** A `runUntilChange` settlement, with the number of invocations it took. */
  datatype Decision = Decision(settlement: Settlement, used: nat)

  /**
   * `runUntilChange` over the outcomes of successive invocations: it settles
   * with the first invocation whose verdict is a settlement, and every
   * invocation before it changed nothing.
   */
  function RunUntilChangeDriver(declared: Option<int>, os: seq<Outcome>): (d: Option<Decision>)
    ensures d.Some? ==> 1 <= d.value.used <= |os|
    ensures d.Some? ==> Verdict(declared, os[d.value.used - 1]) == Some(d.value.settlement)
    ensures d.Some? ==> forall j :: 0 <= j < d.value.used - 1 ==> Verdict(declared, os[j]).None?
    ensures d.None? ==> forall j :: 0 <= j < |os| ==> Verdict(declared, os[j]).None?
  {
    if |os| == 0 then None
    else
      match Verdict(declared, os[0])
      case Some(s) => Some(Decision(s, 1))
      case None =>
        match RunUntilChangeDriver(declared, os[1..])
        case None => None
        case Some(d) => Some(Decision(d.settlement, d.used + 1))
  }

  /**
   * In the error state (declared ERROR) runner errors never settle and never
   * touch the `error` field: the driver settles on the first resolved
   * invocation, with its boolean.
   */
  lemma ErrorStateIgnoresFaults(os: seq<Outcome>)
    ensures var d := RunUntilChangeDriver(Some(ERROR), os);
      && (d.Some? <==> exists j :: 0 <= j < |os| && os[j].Resolved?)
      && (d.Some? ==> os[d.value.used - 1].Resolved?
                      && d.value.settlement == Settlement(ToTri(os[d.value.used - 1].value), None)
                      && forall j :: 0 <= j < d.value.used - 1 ==> os[j].Rejected?)
  {
    var d := RunUntilChangeDriver(Some(ERROR), os);
    if d.None? {
      forall j | 0 <= j < |os|
        ensures os[j].Rejected?
      {
        assert Verdict(Some(ERROR), os[j]).None?;
      }
    }
  }

  /** In `master` and `slave` (declared TRUE) the driver settles on the first FALSE or the first rejection. */
  lemma TrueStatesSettleOnFalseOrFault(os: seq<Outcome>)
    ensures var d := RunUntilChangeDriver(Some(TRUE), os);
      && (d.Some? <==> exists j :: 0 <= j < |os| && os[j] != Resolved(true))
      && (d.Some? ==> forall j :: 0 <= j < d.value.used - 1 ==> os[j] == Resolved(true))
      && (d.Some? ==> (d.value.settlement.result == ERROR <==> os[d.value.used - 1].Rejected?))
  {
    var d := RunUntilChangeDriver(Some(TRUE), os);
    if d.None? {
      forall j | 0 <= j < |os|
        ensures os[j] == Resolved(true)
      {
        assert Verdict(Some(TRUE), os[j]).None?;
      }
    } else {
      forall j | 0 <= j < d.value.used - 1
        ensures os[j] == Resolved(true)
      {
        assert Verdict(Some(TRUE), os[j]).None?;
      }
    }
  }
}

=== FILE: failover.dfy ===
/**
 * The failover instance: the running election state machine.
 *
 * `Machine` holds what the JavaScript code keeps in mutable objects: the state whose
 * driver is running, the numeric `failover.state`, the error state object's
 * runtime overlay, the `error` field of every state object (never cleared;
 * absent means null) and whether a panic stopped the machine. `Advance` is
 * one runner invocation seen through the running state's driver, followed by
 * `switch` when the driver settles. `TickPeer` adds the runner itself,
 * against the heartbeat store or the no-database counter.
 */
module Failover {
  import opened Wrappers
  import opened Values
  import opened Election
  import opened Heartbeat

  datatype Phase = Running | Halted

  datatype Machine = Machine(
    current: StateName,
    numeric: Option<int>,
    overlay: Overlay,
    errors: map<StateName, Fault>,
    phase: Phase)

  /** The `error` field of state object `s`. */
  function ErrorOf(m: Machine, s: StateName): Option<Fault> {
    if s in m.errors then Some(m.errors[s]) else None
  }

  /** A machine after a step, with the events the step emitted in order. */
  datatype Transition = Transition(machine: Machine, events: seq<Event>)

  /**
   * `switch(old, new)`: set `failover.state` to the new state's declared
   * value, emit `statechange(old, new)` and then the event named after the
   * new state carrying the old state's `error`, and enter the new state
   * (entering `error` copies the old state's triggers and runner).
   */
  function Switch(m: Machine, from: Option<StateName>, to: StateName): (t: Transition)
    ensures t.machine.current == to
    ensures t.machine.numeric == Describe(to).declared
    ensures |t.events| == 2
    ensures t.events[0] == StateChange(from, to)
    ensures t.events[1] == Entered(to, if from.None? then None else ErrorOf(m, from.value))
    ensures to == Error && from.Some? && from.value != Error ==> CopiedFrom(t.machine.overlay, from.value)
    ensures to != Error ==> t.machine.overlay == m.overlay
    ensures t.machine.errors == m.errors && t.machine.phase == m.phase
  {
    var oldError := if from.None? then None else ErrorOf(m, from.value);
    var overlay := if to == Error && from.Some? then EnterOverlay(m.overlay, from.value) else m.overlay;
    Transition(m.(current := to, numeric := Describe(to).declared, overlay := overlay),
               [StateChange(from, to), Entered(to, oldError)])
  }

  /** The machine before `run()`: no state entered yet, every `error` field null. */
  const Unstarted: Machine := Machine(Init, None, Unassigned, map[], Running)

  /** `run()`: switch from the pseudo state `boot` to `init`. */
  function Start(): (t: Transition)
    ensures t.machine.current == Init && t.machine.phase == Running
    ensures t.events == [StateChange(None, Init), Entered(Init, None)]
  {
    Switch(Unstarted, None, Init)
  }

  /**
   * How the running state's driver treats one runner invocation; `None` keeps
   * it running. `init` and `ticking` settle on every invocation; `master` and
   * `slave` on anything but a `true`; `error` on any resolution and never on
   * a rejection.
   */
  function Drive(s: StateName, o: Outcome): (v: Option<Settlement>)
    ensures Describe(s).starter == RunOnce ==> v == Some(RunOnceDriver(o))
    ensures Describe(s).starter == RunUntilChange ==> v == Verdict(Describe(s).declared, o)
    ensures s == Init || s == Ticking ==> v.Some?
    ensures s == Master || s == Slave ==> (v.Some? <==> o != Resolved(true))
    ensures s == Error ==> (v.Some? <==> o.Resolved?)
  {
    var d := Describe(s);
    if d.starter == RunOnce then Some(RunOnceDriver(o)) else Verdict(d.declared, o)
  }

  /**
   * One runner invocation with outcome `o`. When the driver settles, its
   * error (if any) is stored in the running state object, and the result is
   * looked up in the running state's triggers: an unknown result panics and
   * stops the machine, a known one switches.
   */
  function Advance(m: Machine, o: Outcome): (t: Transition)
    ensures m.phase == Halted ==> t == Transition(m, [])
    ensures m.phase == Running && Drive(m.current, o).None? ==> t == Transition(m, [])
    ensures m.phase == Running && Drive(m.current, o).Some? ==>
      var s := Drive(m.current, o).value;
      var next := Lookup(ActiveTriggers(m.current, m.overlay), s.result);
      && (s.recorded.Some? ==> ErrorOf(t.machine, m.current) == s.recorded)
      && (next.None? ==> t.machine.phase == Halted && t.events == [Panic(m.current, s.result)])
      && (next.Some? ==> t.machine.current == next.value && |t.events| == 2 && t.events[0] == StateChange(Some(m.current), next.value))
  {
    if m.phase == Halted then Transition(m, [])
    else
      match Drive(m.current, o)
      case None => Transition(m, [])
      case Some(s) =>
        var m1 := if s.recorded.Some? then m.(errors := m.errors[m.current := s.recorded.value]) else m;
        match Lookup(ActiveTriggers(m.current, m.overlay), s.result)
        case None => Transition(m1.(phase := Halted), [Panic(m.current, s.result)])
        case Some(next) => Switch(m1, Some(m.current), next)
  }

  /**
   * When a step switches, the event named after the new state carries the
   * old state's `error` field as it is after the step: the fault just
   * recorded, or else whatever an earlier fault left there.
   */
  lemma AdvanceAnnouncesFault(m: Machine, o: Outcome)
    requires m.phase == Running && Drive(m.current, o).Some?
    requires Lookup(ActiveTriggers(m.current, m.overlay), Drive(m.current, o).value.result).Some?
    ensures var s := Drive(m.current, o).value;
      var t := Advance(m, o);
      && t.machine.phase == Running
      && t.events[1] == Entered(t.machine.current, if s.recorded.Some? then s.recorded else ErrorOf(m, m.current))
  {
  }

  /** A machine that is running and, when in `error`, holds a copy of a normal state's table and runner. */
  predicate Healthy(m: Machine) {
    && m.phase == Running
    && (m.current == Error ==> IsNormalOverlay(m.overlay))
  }

  /**
   * The panic branch is unreachable: a healthy machine's active table is
   * total over the three results, the drivers only settle with those, so
   * every step keeps the machine healthy and emits no panic.
   */
  lemma AdvanceKeepsHealthy(m: Machine, o: Outcome)
    requires Healthy(m)
    ensures Healthy(Advance(m, o).machine)
    ensures forall e :: e in Advance(m, o).events ==> !e.Panic?
  {
    var t := ActiveTriggers(m.current, m.overlay);
    if m.current != Error {
      TablesTotal(m.current);
    } else {
      TablesTotal(Init);
      TablesTotal(Master);
      TablesTotal(Slave);
      TablesTotal(Ticking);
    }
    assert Total(t);
  }

  /** The machine after a sequence of runner invocations, and everything it emitted. */
  function AdvanceAll(m: Machine, os: seq<Outcome>): Transition
    decreases |os|
  {
    if |os| == 0 then Transition(m, [])
    else
      var t := Advance(m, os[0]);
      var rest := AdvanceAll(t.machine, os[1..]);
      Transition(rest.machine, t.events + rest.events)
  }

  /** For every sequence of runner outcomes, a healthy machine never panics. */
  lemma {:induction false} NeverPanics(m: Machine, os: seq<Outcome>)
    requires Healthy(m)
    ensures Healthy(AdvanceAll(m, os).machine)
    ensures forall e :: e in AdvanceAll(m, os).events ==> !e.Panic?
    decreases |os|
  {
    if |os| > 0 {
      AdvanceKeepsHealthy(m, os[0]);
      NeverPanics(Advance(m, os[0]).machine, os[1..]);
    }
  }

  /** The machine `run()` starts is healthy. */
  lemma StartIsHealthy()
    ensures Healthy(Start().machine)
  {
  }

  /**
   * `master` is entered only from `ticking`, or from `error` holding the
   * table of `ticking` or `master` (a failure in those states); `init` never
   * switches to `master`. `master` itself never re-enters `master`, since its
   * driver does not settle on TRUE.
   */
  lemma MasterEnteredOnlyFromTicking(m: Machine, o: Outcome)
    requires Healthy(m)
    ensures var t := Advance(m, o);
      |t.events| > 0 && t.machine.current == Master ==>
        || m.current == Ticking
        || (m.current == Error && (CopiedFrom(m.overlay, Ticking) || CopiedFrom(m.overlay, Master)))
  {
    AdvanceKeepsHealthy(m, o);
  }

  /**
   * Error overlay: a failure in a normal state `s` enters `error` holding
   * `s`'s table and runner, emitting the failure with the `error` event;
   * further failures are ignored; the first boolean result is routed by
   * `s`'s own table.
   */
  lemma ErrorRecoveryUsesOriginTable(m: Machine, f: Fault, g: Fault, b: bool)
    requires Healthy(m) && m.current != Error
    ensures var t1 := Advance(m, Rejected(f));
      && t1.machine.current == Error
      && CopiedFrom(t1.machine.overlay, m.current)
      && t1.events == [StateChange(Some(m.current), Error), Entered(Error, Some(f))]
      && Advance(t1.machine, Rejected(g)) == Transition(t1.machine, [])
      && Advance(t1.machine, Resolved(b)).machine.current == Triggers(m.current)[ToTri(b)]
  {
    TablesTotal(m.current);
  }

  /** From `init`, a failure and then a TRUE lead to `ticking`, as `init`'s own table says. */
  lemma InitErrorThenTrueGoesToTicking(m: Machine, f: Fault)
    requires Healthy(m) && m.current == Init
    ensures Advance(Advance(m, Rejected(f)).machine, Resolved(true)).machine.current == Ticking
  {
    ErrorRecoveryUsesOriginTable(m, f, f, true);
  }

  /**
   * Step by step the machine agrees with `runUntilChange` over the same
   * outcomes: in a state with that strategy it stays put, emitting nothing,
   * until the invocation the driver settles with, and then switches to the
   * state the active table gives for the driver's result.
   */
  lemma {:induction false} UntilChangeAgreesWithDriver(m: Machine, os: seq<Outcome>)
    requires Healthy(m)
    requires Describe(m.current).starter == RunUntilChange
    ensures var d := RunUntilChangeDriver(Describe(m.current).declared, os);
      && (d.None? ==> AdvanceAll(m, os) == Transition(m, []))
      && (d.Some? ==>
            var t := AdvanceAll(m, os[..d.value.used]);
            var next := Lookup(ActiveTriggers(m.current, m.overlay), d.value.settlement.result);
            && next.Some?
            && t.machine.current == next.value
            && |t.events| > 0 && t.events[0] == StateChange(Some(m.current), next.value))
    decreases |os|
  {
    if |os| > 0 {
      var declared := Describe(m.current).declared;
      AdvanceKeepsHealthy(m, os[0]);
      if Verdict(declared, os[0]).None? {
        assert Advance(m, os[0]) == Transition(m, []);
        UntilChangeAgreesWithDriver(m, os[1..]);
        var d := RunUntilChangeDriver(declared, os);
        if d.Some? {
          assert os[..d.value.used][1..] == os[1..][..d.value.used - 1];
        }
      } else {
        assert os[..1][1..] == [];
      }
    }
  }

  /** What a tick does to the world outside the peer: the store and the test counter. */
  datatype Env = Env(store: Store, counter: int)

  /** One firing of the running state's timer: the clock reading and whether the store call fails. */
  datatype Tick = Tick(now: int, fault: Option<Fault>)

  /** A failover instance: its machine and its `payload`. */
  datatype Peer = Peer(machine: Machine, payload: Payload)

  /**
   * `new failover(name, identifier)`: the payload names the group and this
   * process (`member`, the host name and pid), and stores a falsy identifier
   * as null.
   */
  function NewPayload(name: string, member: string, identifier: Value): (p: Payload)
    ensures p.name == name && p.member == member
    ensures p.identifier == Null <==> IsFalsy(identifier)
    ensures !IsFalsy(identifier) ==> p.identifier == identifier
  {
    Payload(name, member, if IsFalsy(identifier) then Null else identifier)
  }

  datatype Round = Round(peer: Peer, env: Env, events: seq<Event>)

  /** A runner invocation as the peer sees it. */
  datatype Call = Call(env: Env, payload: Payload, outcome: Outcome, events: seq<Event>)

  /**
   * One invocation of `runner`, against the store or, in no-database mode,
   * the counter. This is the binding `init(options)` evidently intends: with
   * `nodb` set, every state object's runner calls the counter tests. As the
   * code stands the state objects never see that choice (`TickPeerAsWritten`).
   */
  function Invoke(runner: Runner, nodb: bool, env: Env, p: Payload, tick: Tick): (c: Call)
    ensures c.payload.name == p.name && c.payload.member == p.member
    ensures nodb ==> c.env.store == env.store && c.events == [] && c.payload == p && c.outcome.Resolved?
    ensures !nodb ==> c.env.counter == env.counter
    ensures runner == SlaveTest ==> c.env.store == env.store
  {
    if nodb then
      var r := if runner == MasterTest then NodbMasterTest(env.counter) else NodbSlaveTest(env.counter);
      Call(Env(env.store, r.counter), p, r.outcome, [])
    else
      var i := if runner == MasterTest then MasterTestOn(env.store, tick.now, tick.fault, p)
               else SlaveTestOn(env.store, tick.now, tick.fault, p);
      Call(Env(i.store, env.counter), i.payload, i.outcome, i.events)
  }

  /**
   * One timer firing of a running peer: invoke the running state's runner
   * (its events come first), then let the driver and `switch` react to its
   * outcome. A stopped machine has no timer.
   */
  function TickPeer(peer: Peer, nodb: bool, env: Env, tick: Tick): (r: Round)
    ensures peer.machine.phase == Halted ==> r == Round(peer, env, [])
    ensures r.peer.payload.name == peer.payload.name && r.peer.payload.member == peer.payload.member
  {
    var m := peer.machine;
    if m.phase == Halted then Round(peer, env, [])
    else
      match ActiveRunner(m.current, m.overlay)
      case None => Round(peer, env, [])
      case Some(runner) =>
        var c := Invoke(runner, nodb, env, peer.payload, tick);
        var t := Advance(m, c.outcome);
        Round(Peer(t.machine, c.payload), c.env, c.events + t.events)
  }

  /**
   * The order of a firing's events: the runner's own events, all of them
   * `synchronize`, come first, and the driver's reaction to the runner's
   * outcome follows. So the handlers see `synchronize` while the state, and
   * the `master` flag kept from it, is still the old one.
   */
  lemma TickPeerRunnerFirst(peer: Peer, nodb: bool, env: Env, tick: Tick)
    requires peer.machine.phase == Running
    requires ActiveRunner(peer.machine.current, peer.machine.overlay).Some?
    ensures var m := peer.machine;
      var c := Invoke(ActiveRunner(m.current, m.overlay).value, nodb, env, peer.payload, tick);
      var t := Advance(m, c.outcome);
      var r := TickPeer(peer, nodb, env, tick);
      && (forall e :: e in c.events ==> e.Synchronize?)
      && r.events == c.events + t.events
      && r.peer.machine == t.machine
  {
  }

  /**
   * A timer firing as the code stands. The state objects are built when the
   * module loads and keep the runner function they were given; `init` later
   * rebinds only the module's own names `masterTest` and `slaveTest`, which
   * no state object reads again, and the error overlay copies the runner of
   * the state that failed. So with `nodb` set every state still runs the
   * store tests, and the no-database counter is never touched.
   */
  function TickPeerAsWritten(peer: Peer, nodb: bool, env: Env, tick: Tick): (r: Round)
    ensures r.env.counter == env.counter
    ensures peer.machine.phase == Halted ==> r == Round(peer, env, [])
  {
    TickPeer(peer, false, env, tick)
  }

  /**
   * The first firing after `run()` in no-database mode, with no fresh record:
   * as written, `init` runs the store's `masterTest` just as without `nodb`,
   * and the counter stays put. (Against the model's store, which answers
   * every call, that test inserts a heartbeat and emits `synchronize`; the
   * program's call goes to a connection `run()` never opened.) With the
   * counters bound as intended, the same firing makes no store call and
   * only moves the counter, entering `ticking` unless it stood at 5.
   */
  lemma NodbStartupAsWritten(peer: Peer, env: Env, tick: Tick)
    requires Healthy(peer.machine) && peer.machine.current == Init
    requires tick.fault.None? && FindFresh(env.store, peer.payload.name, tick.now).None?
    ensures var w := TickPeerAsWritten(peer, true, env, tick);
      && w == TickPeerAsWritten(peer, false, env, tick)
      && w.env == Env(env.store + [Inserted(peer.payload, tick.now)], env.counter)
      && |w.events| > 0 && w.events[0] == Synchronize(StoredIdentifier(peer.payload.identifier))
      && w.peer.machine.current == Ticking
    ensures var i := TickPeer(peer, true, env, tick);
      && i.env == Env(env.store, env.counter + 1)
      && (forall e :: e in i.events ==> !e.Synchronize?)
      && i.peer.machine.current == (if env.counter != 5 then Ticking else Slave)
  {
    var c := Invoke(MasterTest, false, env, peer.payload, tick);
    assert c.events == [Synchronize(StoredIdentifier(peer.payload.identifier))];
  }

  /** A healthy peer stays healthy and never panics, whatever the store does. */
  lemma TickKeepsHealthy(peer: Peer, nodb: bool, env: Env, tick: Tick)
    requires Healthy(peer.machine)
    ensures Healthy(TickPeer(peer, nodb, env, tick).peer.machine)
    ensures forall e :: e in TickPeer(peer, nodb, env, tick).events ==> !e.Panic?
  {
    var m := peer.machine;
    var runner := ActiveRunner(m.current, m.overlay);
    assert runner.Some?;
    var c := Invoke(runner.value, nodb, env, peer.payload, tick);
    AdvanceKeepsHealthy(m, c.outcome);
    assert forall e :: e in c.events ==> e.Synchronize?;
  }

  /** A peer after a sequence of timer firings. */
  function RunTicks(peer: Peer, nodb: bool, env: Env, ticks: seq<Tick>): Round
    decreases |ticks|
  {
    if |ticks| == 0 then Round(peer, env, [])
    else
      var r := TickPeer(peer, nodb, env, ticks[0]);
      var rest := RunTicks(r.peer, nodb, r.env, ticks[1..]);
      Round(rest.peer, rest.env, r.events + rest.events)
  }

  /** The states entered, in order, according to the `statechange` events among `events`. */
  function Entries(events: seq<Event>): seq<StateName> {
    if |events| == 0 then []
    else (if events[0].StateChange? then [events[0].to] else []) + Entries(events[1..])
  }

  lemma {:induction false} EntriesAppend(a: seq<Event>, b: seq<Event>)
    ensures Entries(a + b) == Entries(a) + Entries(b)
    decreases |a|
  {
    if |a| > 0 {
      var head := if a[0].StateChange? then [a[0].to] else [];
      assert (a + b)[0] == a[0];
      assert (a + b)[1..] == a[1..] + b;
      assert Entries(a + b) == head + Entries(a[1..] + b);
      EntriesAppend(a[1..], b);
      assert Entries(a) == head + Entries(a[1..]);
    } else {
      assert a + b == b;
    }
  }

  lemma EntriesOfSwitch(from: Option<StateName>, to: StateName, e: Option<Fault>)
    ensures Entries([StateChange(from, to), Entered(to, e)]) == [to]
  {
    var s := [StateChange(from, to), Entered(to, e)];
    assert s[1..] == [Entered(to, e)];
    assert Entries([Entered(to, e)]) == [];
    assert Entries(s) == [s[0].to] + Entries(s[1..]);
  }

  lemma SplitHead<T>(a: seq<T>, b: seq<T>)
    requires |a| > 0
    ensures (a + b)[0] == a[0] && (a + b)[1..] == a[1..] + b
  {
  }

  lemma ConcatAssoc<T>(a: seq<T>, b: seq<T>, c: seq<T>)
    ensures a + (b + c) == (a + b) + c
  {
  }

  /** Running ticks `a` and then ticks `b` is running `a + b`. */
  lemma {:induction false} RunTicksSplit(peer: Peer, nodb: bool, env: Env, a: seq<Tick>, b: seq<Tick>)
    ensures var ra := RunTicks(peer, nodb, env, a);
      var rb := RunTicks(ra.peer, nodb, ra.env, b);
      RunTicks(peer, nodb, env, a + b) == Round(rb.peer, rb.env, ra.events + rb.events)
    decreases |a|
  {
    if |a| > 0 {
      SplitHead(a, b);
      var r := TickPeer(peer, nodb, env, a[0]);
      RunTicksSplit(r.peer, nodb, r.env, a[1..], b);
      var ra := RunTicks(r.peer, nodb, r.env, a[1..]);
      var rb := RunTicks(ra.peer, nodb, ra.env, b);
      ConcatAssoc(r.events, ra.events, rb.events);
    } else {
      assert a + b == b;
    }
  }

  /** A run cut at tick `n`: the second part starts where the first ends. */
  lemma RunTicksAt(peer: Peer, nodb: bool, env: Env, ticks: seq<Tick>, n: nat)
    requires n <= |ticks|
    ensures var r1 := RunTicks(peer, nodb, env, ticks[..n]);
      var r2 := RunTicks(r1.peer, nodb, r1.env, ticks[n..]);
      RunTicks(peer, nodb, env, ticks) == Round(r2.peer, r2.env, r1.events + r2.events)
  {
    assert ticks == ticks[..n] + ticks[n..];
    RunTicksSplit(peer, nodb, env, ticks[..n], ticks[n..]);
  }

  /**
   * No-database mode, `master`: `_masterTest` keeps succeeding until the
   * counter reaches 5; that invocation fails and the peer switches to `slave`.
   */
  lemma {:induction false} NodbMasterHoldsUntilFive(peer: Peer, env: Env, ticks: seq<Tick>)
    requires Healthy(peer.machine) && peer.machine.current == Master
    requires env.counter <= 5 && |ticks| == 6 - env.counter
    ensures var r := RunTicks(peer, true, env, ticks);
      && Healthy(r.peer.machine)
      && r.peer.machine.current == Slave
      && r.env.counter == 6
      && Entries(r.events) == [Slave]
      && r.peer.payload == peer.payload
    decreases |ticks|
  {
    var r := TickPeer(peer, true, env, ticks[0]);
    TickKeepsHealthy(peer, true, env, ticks[0]);
    if env.counter < 5 {
      assert r.events == [];
      NodbMasterHoldsUntilFive(r.peer, r.env, ticks[1..]);
      assert [] + RunTicks(r.peer, true, r.env, ticks[1..]).events == RunTicks(r.peer, true, r.env, ticks[1..]).events;
    } else {
      assert r.events == [StateChange(Some(Master), Slave), Entered(Slave, ErrorOf(peer.machine, Master))];
      EntriesOfSwitch(Some(Master), Slave, ErrorOf(peer.machine, Master));
      assert RunTicks(r.peer, true, r.env, ticks[1..]) == Round(r.peer, r.env, []);
      assert r.events + [] == r.events;
    }
  }

  /**
   * No-database mode, `slave`: `_slaveTest` keeps succeeding while the counter
   * is not 0; at 0 it fails and the peer switches to `ticking`.
   */
  lemma {:induction false} NodbSlaveHoldsUntilZero(peer: Peer, env: Env, ticks: seq<Tick>)
    requires Healthy(peer.machine) && peer.machine.current == Slave
    requires env.counter >= 0 && |ticks| == env.counter + 1
    ensures var r := RunTicks(peer, true, env, ticks);
      && Healthy(r.peer.machine)
      && r.peer.machine.current == Ticking
      && r.env.counter == -1
      && Entries(r.events) == [Ticking]
      && r.peer.payload == peer.payload
    decreases |ticks|
  {
    var r := TickPeer(peer, true, env, ticks[0]);
    TickKeepsHealthy(peer, true, env, ticks[0]);
    if env.counter > 0 {
      assert r.events == [];
      NodbSlaveHoldsUntilZero(r.peer, r.env, ticks[1..]);
      assert [] + RunTicks(r.peer, true, r.env, ticks[1..]).events == RunTicks(r.peer, true, r.env, ticks[1..]).events;
    } else {
      assert r.events == [StateChange(Some(Slave), Ticking), Entered(Ticking, ErrorOf(peer.machine, Slave))];
      EntriesOfSwitch(Some(Slave), Ticking, ErrorOf(peer.machine, Slave));
      assert RunTicks(r.peer, true, r.env, ticks[1..]) == Round(r.peer, r.env, []);
      assert r.events + [] == r.events;
    }
  }

  lemma RunOneTick(peer: Peer, nodb: bool, env: Env, t: Tick)
    ensures RunTicks(peer, nodb, env, [t]) == TickPeer(peer, nodb, env, t)
  {
    var r := TickPeer(peer, nodb, env, t);
    assert [t][1..] == [];
    assert r.events + [] == r.events;
  }

  /**
   * No-database mode, from `init` (where `run()` leaves the machine) with the
   * counter at 0: `init` and `ticking` both win, and the peer is `master`.
   */
  lemma NodbStartup(peer: Peer, env: Env, ticks: seq<Tick>)
    requires Healthy(peer.machine) && peer.machine.current == Init
    requires env.counter == 0 && |ticks| == 2
    ensures var r := RunTicks(peer, true, env, ticks);
      && Healthy(r.peer.machine)
      && r.peer.machine.current == Master
      && r.env.counter == 2
      && Entries(r.events) == [Ticking, Master]
  {
    var r1 := TickPeer(peer, true, env, ticks[0]);
    TickKeepsHealthy(peer, true, env, ticks[0]);
    assert r1.events == [StateChange(Some(Init), Ticking), Entered(Ticking, ErrorOf(peer.machine, Init))];
    EntriesOfSwitch(Some(Init), Ticking, ErrorOf(peer.machine, Init));
    var r2 := TickPeer(r1.peer, true, r1.env, ticks[1]);
    TickKeepsHealthy(r1.peer, true, r1.env, ticks[1]);
    assert r2.events == [StateChange(Some(Ticking), Master), Entered(Master, ErrorOf(r1.peer.machine, Ticking))];
    EntriesOfSwitch(Some(Ticking), Master, ErrorOf(r1.peer.machine, Ticking));
    RunOneTick(peer, true, env, ticks[0]);
    RunOneTick(r1.peer, true, r1.env, ticks[1]);
    RunTicksAt(peer, true, env, ticks, 1);
    assert ticks[..1] == [ticks[0]] && ticks[1..] == [ticks[1]];
    EntriesAppend(r1.events, r2.events);
  }

  /** No-database mode, `slave`: back to `master` through `ticking`, the counter back at 0. */
  lemma NodbSlaveToMaster(peer: Peer, env: Env, ticks: seq<Tick>)
    requires Healthy(peer.machine) && peer.machine.current == Slave
    requires env.counter >= 0 && |ticks| == env.counter + 2
    ensures var r := RunTicks(peer, true, env, ticks);
      && Healthy(r.peer.machine)
      && r.peer.machine.current == Master
      && r.env.counter == 0
      && Entries(r.events) == [Ticking, Master]
  {
    var n := |ticks| - 1;
    NodbSlaveHoldsUntilZero(peer, env, ticks[..n]);
    var r1 := RunTicks(peer, true, env, ticks[..n]);
    var r2 := TickPeer(r1.peer, true, r1.env, ticks[n]);
    TickKeepsHealthy(r1.peer, true, r1.env, ticks[n]);
    assert r2.events == [StateChange(Some(Ticking), Master), Entered(Master, ErrorOf(r1.peer.machine, Ticking))];
    EntriesOfSwitch(Some(Ticking), Master, ErrorOf(r1.peer.machine, Ticking));
    assert ticks[n..] == [ticks[n]];
    RunOneTick(r1.peer, true, r1.env, ticks[n]);
    RunTicksAt(peer, true, env, ticks, n);
    EntriesAppend(r1.events, r2.events);
  }

  /**
   * No-database mode, one period: from `master` with the counter at most 5,
   * the peer passes through `slave` and `ticking` and is `master` again with
   * the counter at 0.
   */
  lemma NodbMasterCycle(peer: Peer, env: Env, ticks: seq<Tick>)
    requires Healthy(peer.machine) && peer.machine.current == Master
    requires env.counter <= 5 && |ticks| == 14 - env.counter
    ensures var r := RunTicks(peer, true, env, ticks);
      && Healthy(r.peer.machine)
      && r.peer.machine.current == Master
      && r.env.counter == 0
      && Entries(r.events) == [Slave, Ticking, Master]
  {
    var n := 6 - env.counter;
    NodbMasterHoldsUntilFive(peer, env, ticks[..n]);
    var r1 := RunTicks(peer, true, env, ticks[..n]);
    NodbSlaveToMaster(r1.peer, r1.env, ticks[n..]);
    var r2 := RunTicks(r1.peer, true, r1.env, ticks[n..]);
    RunTicksAt(peer, true, env, ticks, n);
    EntriesAppend(r1.events, r2.events);
  }

  /**
   * The no-database script from `init` with the counter at 0, as `run()`
   * leaves a peer: after fourteen timer firings the peer has entered ticking,
   * master, slave, ticking, master, and the counter is back at 0.
   */
  lemma NodbScript(peer: Peer, env: Env, ticks: seq<Tick>)
    requires Healthy(peer.machine) && peer.machine.current == Init
    requires env.counter == 0 && |ticks| == 14
    ensures var r := RunTicks(peer, true, env, ticks);
      && r.peer.machine.current == Master
      && r.env.counter == 0
      && Entries(r.events) == [Ticking, Master, Slave, Ticking, Master]
  {
    NodbStartup(peer, env, ticks[..2]);
    var r1 := RunTicks(peer, true, env, ticks[..2]);
    NodbMasterCycle(r1.peer, r1.env, ticks[2..]);
    var r2 := RunTicks(r1.peer, true, r1.env, ticks[2..]);
    RunTicksAt(peer, true, env, ticks, 2);
    EntriesAppend(r1.events, r2.events);
  }
}

=== FILE: heartbeat.dfy ===
/**
 * The two runners against an abstract heartbeat store, and the deterministic
 * runners of the no-database test mode.
 *
 * The store is the sequence of heartbeat records in natural order. Its two
 * operations are the ones the runners use: a freshness-filtered `findOne`
 * (the first fresh record) and an atomic find-or-insert whose update only
 * sets fields on insert. A store call that fails rejects the runner and is
 * taken to have written nothing.
 */
module Heartbeat {
  import opened Wrappers
  import opened Values
  import opened Election

  /** The failover's captured `payload`. */
  datatype Payload = Payload(name: string, member: string, identifier: Value)

  datatype Record = Record(name: string, member: string, identifier: Value, lastSeen: int)

  type Store = seq<Record>

  /** The query filter of both runners: same group, seen within the last master interval. */
  predicate Fresh(r: Record, name: string, now: int) {
    r.name == name && r.lastSeen > now - INTERVAL_MASTER
  }

  /** The index of the first fresh record for `name`, if any. */
  function FindFresh(store: Store, name: string, now: int): (i: Option<nat>)
    ensures i.Some? ==> i.value < |store| && Fresh(store[i.value], name, now)
    ensures i.Some? ==> forall j :: 0 <= j < i.value ==> !Fresh(store[j], name, now)
    ensures i.None? <==> forall j :: 0 <= j < |store| ==> !Fresh(store[j], name, now)
  {
    if |store| == 0 then None
    else if Fresh(store[0], name, now) then Some(0)
    else
      match FindFresh(store[1..], name, now)
      case None => None
      case Some(k) => Some(k + 1)
  }

  /** The record `$setOnInsert` creates: this peer, its identifier as the schema stores it, stamped `now`. */
  function Inserted(p: Payload, now: int): Record {
    Record(p.name, p.member, StoredIdentifier(p.identifier), now)
  }

  /** A runner invocation: the store and payload after it, how it settles, and what it emitted. */
  datatype Invocation = Invocation(store: Store, payload: Payload, outcome: Outcome, events: seq<Event>)

  /** Appending a fresh record to a store with no fresh record makes it the one found. */
  lemma {:induction false} FindFreshAfterInsert(store: Store, r: Record, name: string, now: int)
    requires FindFresh(store, name, now).None?
    requires Fresh(r, name, now)
    ensures FindFresh(store + [r], name, now) == Some(|store|)
  {
    if |store| > 0 {
      assert (store + [r])[1..] == store[1..] + [r];
      FindFreshAfterInsert(store[1..], r, name, now);
    }
  }

  /**
   * `masterTest`: find the fresh record for the group or insert one for this
   * peer, atomically. An existing fresh record is returned unmodified. The
   * runner resolves true iff the resulting record belongs to this peer, and
   * only then emits `synchronize` with that record's identifier.
   */
  function MasterTestOn(store: Store, now: int, fault: Option<Fault>, p: Payload): (r: Invocation)
    ensures r.payload == p
    ensures fault.Some? ==> r == Invocation(store, p, Rejected(fault.value), [])
    ensures fault.None? && FindFresh(store, p.name, now).Some? ==> r.store == store
    ensures fault.None? && FindFresh(store, p.name, now).None? ==> r.store == store + [Inserted(p, now)]
    ensures fault.None? ==>
      var k := FindFresh(r.store, p.name, now);
      && k.Some?
      && r.outcome == Resolved(r.store[k.value].member == p.member)
      && r.events == (if r.store[k.value].member == p.member then [Synchronize(r.store[k.value].identifier)] else [])
  {
    if fault.Some? then Invocation(store, p, Rejected(fault.value), [])
    else
      match FindFresh(store, p.name, now)
      case Some(i) =>
        var doc := store[i];
        Invocation(store, p, Resolved(doc.member == p.member),
                   if doc.member == p.member then [Synchronize(doc.identifier)] else [])
      case None =>
        var doc := Inserted(p, now);
        FindFreshAfterInsert(store, doc, p.name, now);
        Invocation(store + [doc], p, Resolved(true), [Synchronize(doc.identifier)])
  }

  /**
   * `slaveTest`: read the fresh record and never write. It resolves true iff
   * one exists; when its identifier differs (strictly) from the payload's it
   * is adopted and emitted with `synchronize`.
   */
  function SlaveTestOn(store: Store, now: int, fault: Option<Fault>, p: Payload): (r: Invocation)
    ensures r.store == store
    ensures r.payload.name == p.name && r.payload.member == p.member
    ensures fault.Some? ==> r == Invocation(store, p, Rejected(fault.value), [])
    ensures fault.None? ==> r.outcome == Resolved(FindFresh(store, p.name, now).Some?)
    ensures fault.None? ==>
      var k := FindFresh(store, p.name, now);
      if k.Some? && store[k.value].identifier != p.identifier then
        r.payload.identifier == store[k.value].identifier && r.events == [Synchronize(store[k.value].identifier)]
      else
        r.payload == p && r.events == []
  {
    if fault.Some? then Invocation(store, p, Rejected(fault.value), [])
    else
      match FindFresh(store, p.name, now)
      case None => Invocation(store, p, Resolved(false), [])
      case Some(i) =>
        var doc := store[i];
        if p.identifier != doc.identifier then
          Invocation(store, p.(identifier := doc.identifier), Resolved(true), [Synchronize(doc.identifier)])
        else
          Invocation(store, p, Resolved(true), [])
  }

  /** A no-database runner invocation: the shared test counter after it, and the outcome. */
  datatype Counted = Counted(counter: int, outcome: Outcome)

  /** `_masterTest`: moves the shared counter up by one and succeeds unless it stood at 5; never rejects. */
  function NodbMasterTest(counter: int): (r: Counted)
    ensures r.counter == counter + 1
    ensures r.outcome.Resolved? && (r.outcome.value <==> counter != 5)
  {
    Counted(counter + 1, Resolved(counter != 5))
  }

  /** `_slaveTest`: moves the shared counter down by one and succeeds unless it stood at 0; never rejects. */
  function NodbSlaveTest(counter: int): (r: Counted)
    ensures r.counter == counter - 1
    ensures r.outcome.Resolved? && (r.outcome.value <==> counter != 0)
  {
    Counted(counter - 1, Resolved(counter != 0))
  }

  /** At most one record of the group is fresh at `now`. */
  ghost predicate AtMostOneFresh(store: Store, name: string, now: int) {
    forall i, j :: 0 <= i < j < |store| && Fresh(store[i], name, now) ==> !Fresh(store[j], name, now)
  }

  /**
   * With a clock that does not go backwards, `masterTest` keeps at most one
   * fresh record per group: it inserts only when none is fresh, and a record
   * fresh now was fresh at every earlier time.
   */
  lemma MasterTestKeepsOneFresh(store: Store, earlier: int, now: int, fault: Option<Fault>, p: Payload)
    requires AtMostOneFresh(store, p.name, earlier)
    requires earlier <= now
    ensures AtMostOneFresh(MasterTestOn(store, now, fault, p).store, p.name, now)
  {
    var r := MasterTestOn(store, now, fault, p);
    forall i, j | 0 <= i < j < |r.store| && Fresh(r.store[i], p.name, now)
      ensures !Fresh(r.store[j], p.name, now)
    {
      if j < |store| {
        assert r.store[i] == store[i] && r.store[j] == store[j];
        assert Fresh(store[i], p.name, earlier);
      }
    }
  }

  /**
   * Repeating `masterTest` at the same time changes nothing: the record found
   * or inserted the first time is found again, unmodified, with the same result.
   */
  lemma MasterTestIdempotent(store: Store, now: int, p: Payload)
    ensures var r1 := MasterTestOn(store, now, None, p);
      var r2 := MasterTestOn(r1.store, now, None, p);
      r2.store == r1.store && r2.outcome == r1.outcome && r2.events == r1.events
  {
  }

  /** A `slaveTest` that adopted an identifier, repeated on the same store, adopts and emits nothing. */
  lemma SlaveTestAdoptsOnce(store: Store, now: int, p: Payload)
    ensures var r1 := SlaveTestOn(store, now, None, p);
      var r2 := SlaveTestOn(store, now, None, r1.payload);
      r2.payload == r1.payload && r2.events == [] && r2.outcome == r1.outcome
  {
  }

  lemma NoneFreshLater(store: Store, name: string, earlier: int, later: int)
    requires FindFresh(store, name, earlier).None?
    requires earlier <= later
    ensures FindFresh(store, name, later).None?
  {
    forall j | 0 <= j < |store|
      ensures !Fresh(store[j], name, later)
    {
      assert !Fresh(store[j], name, earlier);
    }
  }

  /**
   * The start-up race and why a won `init` still goes through `ticking`: when
   * peer `a` inserts at `x` and peer `b`, whose clock reads at least one
   * master interval later, runs its test at `y`, `a`'s record is already
   * stale for `b`, so both win. `a`'s next test at any `z` within `b`'s
   * window finds `b`'s record and loses, without writing.
   */
  lemma InitRaceBothWinThenEarlierLoses(store: Store, a: Payload, b: Payload, x: int, y: int, z: int)
    requires a.name == b.name && a.member != b.member
    requires FindFresh(store, a.name, x).None?
    requires x + INTERVAL_MASTER <= y <= z < y + INTERVAL_MASTER
    ensures var ra := MasterTestOn(store, x, None, a);
      var rb := MasterTestOn(ra.store, y, None, b);
      var rc := MasterTestOn(rb.store, z, None, a);
      && ra.outcome == Resolved(true)
      && rb.outcome == Resolved(true)
      && rc.outcome == Resolved(false)
      && rc.store == rb.store
      && rc.events == []
  {
    var ra := MasterTestOn(store, x, None, a);
    assert ra.store == store + [Inserted(a, x)];
    NoneFreshLater(store, a.name, x, y);
    NotFreshAppend(store, Inserted(a, x), a.name, y);
    var rb := MasterTestOn(ra.store, y, None, b);
    assert rb.store == ra.store + [Inserted(b, y)];
    NoneFreshLater(ra.store, a.name, y, z);
    FindFreshAfterInsert(ra.store, Inserted(b, y), a.name, z);
  }

  lemma NotFreshAppend(store: Store, r: Record, name: string, now: int)
    requires FindFresh(store, name, now).None?
    requires !Fresh(r, name, now)
    ensures FindFresh(store + [r], name, now).None?
  {
    var s := store + [r];
    forall j | 0 <= j < |s|
      ensures !Fresh(s[j], name, now)
    {
      if j < |store| { assert s[j] == store[j]; }
    }
  }
}

=== FILE: managed.dfy ===
/**
 * The managed failover: a failover instance whose own events drive the work
 * queue. Its `statechange` handler keeps the coordinator's `master` flag and
 * its `synchronize` handler prunes the backlog; a worker that completes an
 * item while the peer is master records the item's id as the payload
 * identifier, which the next heartbeat publishes for the slaves.
 *
 * A `Node` is one peer with its coordinator. It reacts to three inputs: its
 * running state's timer, a `submitWork` call, and the worker settling for
 * the item in its hands.
 */
module Managed {
  import opened Wrappers
  import opened Values
  import opened Election
  import opened Heartbeat
  import opened Failover
  import opened WorkQueue

  datatype Node = Node(peer: Peer, work: Coordinator)

  /** The coordinator's flag agrees with the machine's state. */
  predicate Tracks(n: Node) {
    n.work.master <==> n.peer.machine.current == Master
  }

  /**
   * `new managed(name, key, worker)` and `run()`: the constructor passes no
   * identifier, so the payload's is null; the start-up events reach the
   * handlers, which leave the coordinator as constructed.
   */
  function Launch(name: string, member: string): (n: Node)
    ensures n.peer.machine.current == Init && Healthy(n.peer.machine)
    ensures n.peer.payload == Payload(name, member, Null)
    ensures n.work == Initial
    ensures Tracks(n)
  {
    var t := Start();
    StartIsHealthy();
    DeliverSwitch(Initial, None, Init, None);
    Node(Peer(t.machine, NewPayload(name, member, Undefined)), Deliver(Initial, t.events))
  }

  datatype Input = Timer(tick: Tick) | Submit(task: Task) | WorkerSettles(outcome: WorkerOutcome)

  /** A node after one input, the environment after it, and the events the failover emitted. */
  datatype Step = Step(node: Node, env: Env, events: seq<Event>)

  /**
   * One input. A timer firing runs the failover's step and hands every event
   * to the handlers in emission order; it never starts or stops the worker.
   * A submission only touches the coordinator. A settlement arrives only
   * while the worker holds an item; a completion while master passes the
   * item's id to `synchronize`, which sets the payload identifier.
   */
  function Handle(n: Node, key: Key, nodb: bool, env: Env, input: Input): (s: Step)
    ensures input.Timer? ==>
      var r := TickPeer(n.peer, nodb, env, input.tick);
      && s.node.peer == r.peer && s.env == r.env && s.events == r.events
      && s.node.work == Deliver(n.work, r.events)
      && s.node.work.drain == n.work.drain
    ensures !input.Timer? ==> s.env == env && s.events == [] && s.node.peer.machine == n.peer.machine
    ensures !input.Timer? ==> s.node.peer.payload.name == n.peer.payload.name && s.node.peer.payload.member == n.peer.payload.member
    ensures input.Submit? ==> s.node.peer == n.peer && s.node.work == SubmitWork(n.work, key, input.task)
    ensures input.WorkerSettles? && !Locked(n.work) ==> s.node == n
    ensures input.WorkerSettles? && Locked(n.work) && Completes(n.work, input.outcome) ==>
      && s.node.peer.payload.identifier == n.work.drain.inFlight.id
      && Backlog(s.node.work) == Backlog(n.work)[1..]
      && s.node.work.master == n.work.master
    ensures input.WorkerSettles? && Locked(n.work) && !Completes(n.work, input.outcome) ==>
      && s.node.peer == n.peer
      && !Locked(s.node.work)
      && s.node.work.master == n.work.master
      && Backlog(s.node.work) == (if Removes(input.outcome) then Backlog(n.work)[1..] else Backlog(n.work))
  {
    match input
    case Timer(tick) =>
      var r := TickPeer(n.peer, nodb, env, tick);
      Step(Node(r.peer, Deliver(n.work, r.events)), r.env, r.events)
    case Submit(task) =>
      Step(Node(n.peer, SubmitWork(n.work, key, task)), env, [])
    case WorkerSettles(o) =>
      if !Locked(n.work) then Step(n, env, [])
      else
        var st := Settle(n.work, o);
        var p := n.peer.payload;
        var payload := if st.synchronized.Some? then p.(identifier := st.synchronized.value) else p;
        Step(Node(n.peer.(payload := payload), st.coordinator), env, [])
  }

  /** The handlers of `switch`'s two events: only the flag changes, to whether the new state is `master`. */
  lemma DeliverSwitch(c: Coordinator, from: Option<StateName>, to: StateName, e: Option<Fault>)
    ensures Deliver(c, [StateChange(from, to), Entered(to, e)]) == OnStateChange(c, to)
  {
    var events := [StateChange(from, to), Entered(to, e)];
    var c1 := OnStateChange(c, to);
    assert events[1..] == [Entered(to, e)] && events[1..][1..] == [];
    assert Deliver(c1, [Entered(to, e)]) == Deliver(c1, []);
    assert Deliver(c, events) == Deliver(c1, events[1..]);
  }

  /** The handlers see one runner invocation's events followed by the driver's: the flag ends up tracking the machine. */
  lemma FlagAfterAdvance(w: Coordinator, m: Machine, o: Outcome)
    requires w.master <==> m.current == Master
    ensures Deliver(w, Advance(m, o).events).master <==> Advance(m, o).machine.current == Master
  {
    var t := Advance(m, o);
    if m.phase == Running && Drive(m.current, o).Some? {
      var st := Drive(m.current, o).value;
      var m1 := if st.recorded.Some? then m.(errors := m.errors[m.current := st.recorded.value]) else m;
      match Lookup(ActiveTriggers(m.current, m.overlay), st.result)
      case None =>
        assert t.events == [Panic(m.current, st.result)];
        assert t.events[1..] == [];
      case Some(next) =>
        assert t.events == [StateChange(Some(m.current), next), Entered(next, if st.recorded.Some? then st.recorded else ErrorOf(m, m.current))];
        DeliverSwitch(w, Some(m.current), next, if st.recorded.Some? then st.recorded else ErrorOf(m, m.current));
    }
  }

  /** Every input keeps the coordinator's flag in step with the machine's state. */
  lemma HandleKeepsTracks(n: Node, key: Key, nodb: bool, env: Env, input: Input)
    requires Tracks(n)
    ensures Tracks(Handle(n, key, nodb, env, input).node)
  {
    if input.Timer? {
      var m := n.peer.machine;
      var runner := ActiveRunner(m.current, m.overlay);
      if m.phase == Running && runner.Some? {
        var c := Invoke(runner.value, nodb, env, n.peer.payload, input.tick);
        var t := Advance(m, c.outcome);
        assert forall e :: e in c.events ==> e.Synchronize?;
        DeliverAppend(n.work, c.events, t.events);
        SyncsKeepFlag(n.work, c.events);
        FlagAfterAdvance(Deliver(n.work, c.events), m, c.outcome);
      }
    }
  }

  /**
   * Only a master hands items to the worker: a peer that is not master and
   * whose worker is idle is still idle after any input, whatever its state
   * becomes; becoming master does not start a drain either.
   */
  lemma IdleUnlessSubmittedToMaster(n: Node, key: Key, nodb: bool, env: Env, input: Input)
    requires Tracks(n) && n.peer.machine.current != Master && !Locked(n.work)
    ensures !Locked(Handle(n, key, nodb, env, input).node.work)
  {
  }

  /**
   * A master's heartbeat when its record has gone stale: the runner inserts
   * a record carrying the payload identifier (as the schema stores it) and
   * emits `synchronize` with it, which the master's own handler ignores; the
   * machine stays in `master`.
   */
  lemma MasterPublishes(n: Node, key: Key, env: Env, tick: Tick)
    requires Tracks(n) && Healthy(n.peer.machine) && n.peer.machine.current == Master
    requires tick.fault.None? && FindFresh(env.store, n.peer.payload.name, tick.now).None?
    ensures var s := Handle(n, key, false, env, Timer(tick));
      && s.env.store == env.store + [Inserted(n.peer.payload, tick.now)]
      && s.events == [Synchronize(StoredIdentifier(n.peer.payload.identifier))]
      && s.node == n
  {
    var c := Invoke(MasterTest, false, env, n.peer.payload, tick);
    assert c.outcome == Resolved(true);
    assert Advance(n.peer.machine, c.outcome) == Transition(n.peer.machine, []);
    assert c.events + [] == c.events;
    assert c.payload == n.peer.payload;
    assert c.events[1..] == [];
    assert Deliver(n.work, c.events) == Deliver(Sync(n.work, c.events[0].id), []);
  }

  /**
   * A `ticking` peer winning its heartbeat. `masterTest` inserts a record
   * and emits `synchronize` with the peer's own identifier before the switch
   * to `master`, so the handler, still seeing the flag false, prunes the
   * peer's own backlog through that identifier; only then does the flag turn.
   */
  lemma PromotionPrunesOwnBacklog(n: Node, key: Key, env: Env, tick: Tick)
    requires Tracks(n) && Healthy(n.peer.machine) && n.peer.machine.current == Ticking
    requires tick.fault.None? && FindFresh(env.store, n.peer.payload.name, tick.now).None?
    ensures var s := Handle(n, key, false, env, Timer(tick));
      var id := StoredIdentifier(n.peer.payload.identifier);
      && |s.events| == 3 && s.events[0] == Synchronize(id) && s.events[1] == StateChange(Some(Ticking), Master)
      && s.node.peer.machine.current == Master
      && s.node.work == Sync(n.work, id).(master := true)
  {
    var m := n.peer.machine;
    var id := StoredIdentifier(n.peer.payload.identifier);
    var c := Invoke(MasterTest, false, env, n.peer.payload, tick);
    assert c.events == [Synchronize(id)] && c.outcome == Resolved(true);
    var t := Advance(m, c.outcome);
    var e := ErrorOf(m, Ticking);
    assert t.events == [StateChange(Some(Ticking), Master), Entered(Master, e)];
    DeliverAppend(n.work, c.events, t.events);
    assert c.events[1..] == [];
    assert Deliver(n.work, c.events) == Deliver(Sync(n.work, id), []);
    DeliverSwitch(Sync(n.work, id), Some(Ticking), Master, e);
  }

  /**
   * A slave's heartbeat finding a fresh record whose identifier differs from
   * its own: it adopts the identifier, emits `synchronize` with it, and its
   * handler prunes the backlog; the machine stays in `slave`.
   */
  lemma SlaveAdopts(n: Node, key: Key, env: Env, tick: Tick)
    requires Tracks(n) && Healthy(n.peer.machine) && n.peer.machine.current == Slave
    requires tick.fault.None? && FindFresh(env.store, n.peer.payload.name, tick.now).Some?
    requires env.store[FindFresh(env.store, n.peer.payload.name, tick.now).value].identifier != n.peer.payload.identifier
    ensures var id := env.store[FindFresh(env.store, n.peer.payload.name, tick.now).value].identifier;
      var s := Handle(n, key, false, env, Timer(tick));
      && s.env == env
      && s.events == [Synchronize(id)]
      && s.node.peer == n.peer.(payload := n.peer.payload.(identifier := id))
      && s.node.work == Sync(n.work, id)
  {
    var c := Invoke(SlaveTest, false, env, n.peer.payload, tick);
    assert c.outcome == Resolved(true);
    assert Advance(n.peer.machine, c.outcome) == Transition(n.peer.machine, []);
    assert c.events + [] == c.events;
    assert c.events[1..] == [];
    assert Deliver(n.work, c.events) == Deliver(Sync(n.work, c.events[0].id), []);
  }

  /**
   * The backlog of a slave whose ids are all numbers loses exactly the prefix
   * through the first item numbered `k` when it receives `k` in its stored
   * (string) form.
   */
  lemma SyncOnStoredNumber(c: Coordinator, k: int, i: nat)
    requires !c.master && i < |c.queue| && c.queue[i].id == Num(k)
    requires forall j :: 0 <= j < |c.queue| ==> c.queue[j].id.Num?
    requires forall j :: 0 <= j < i ==> c.queue[j].id != Num(k)
    ensures Sync(c, StoredIdentifier(Num(k))).queue == c.queue[i + 1..]
  {
    var id := StoredIdentifier(Num(k));
    forall j | 0 <= j < |c.queue|
      ensures LooseEquals(c.queue[j].id, id) <==> c.queue[j].id == Num(k)
    {
      NumberMatchesStoredForm(c.queue[j].id.n, k);
    }
    var f := FirstMatch(c.queue, id);
    assert f.Some?;
    assert f.value == i;
  }

  /**
   * A completion reaches the slaves. The master completes the item numbered
   * `k`, so its identifier becomes `k`; its next heartbeat, with no fresh
   * record in the store, publishes `k` in string form; a slave of the same
   * group whose heartbeat runs within the record's window, and whose own
   * identifier differs, adopts it and drops its backlog through the first
   * item numbered `k`. The master's backlog lost the item too.
   */
  lemma CompletionReachesSlave(ma: Node, sl: Node, key: Key, env: Env, t1: Tick, t2: Tick, k: int, i: nat)
    requires Tracks(ma) && Healthy(ma.peer.machine) && ma.peer.machine.current == Master
    requires Locked(ma.work) && ma.work.drain.inFlight.id == Num(k)
    requires Tracks(sl) && Healthy(sl.peer.machine) && sl.peer.machine.current == Slave
    requires sl.peer.payload.name == ma.peer.payload.name
    requires sl.peer.payload.identifier != StoredIdentifier(Num(k))
    requires t1.fault.None? && t2.fault.None? && t1.now <= t2.now < t1.now + INTERVAL_MASTER
    requires FindFresh(env.store, ma.peer.payload.name, t1.now).None?
    requires i < |sl.work.queue| && sl.work.queue[i].id == Num(k)
    requires forall j :: 0 <= j < |sl.work.queue| ==> sl.work.queue[j].id.Num?
    requires forall j :: 0 <= j < i ==> sl.work.queue[j].id != Num(k)
    ensures var a1 := Handle(ma, key, false, env, WorkerSettles(Done(true)));
      var a2 := Handle(a1.node, key, false, env, Timer(t1));
      var b := Handle(sl, key, false, a2.env, Timer(t2));
      && Backlog(a1.node.work) == Backlog(ma.work)[1..]
      && a2.events == [Synchronize(StoredIdentifier(Num(k)))]
      && a2.node.peer.machine.current == Master
      && b.events == [Synchronize(StoredIdentifier(Num(k)))]
      && b.node.peer.machine.current == Slave
      && b.node.peer.payload.identifier == StoredIdentifier(Num(k))
      && b.node.work.queue == sl.work.queue[i + 1..]
  {
    var a1 := Handle(ma, key, false, env, WorkerSettles(Done(true)));
    assert a1.node.peer.payload.identifier == Num(k);
    HandleKeepsTracks(ma, key, false, env, WorkerSettles(Done(true)));
    MasterPublishes(a1.node, key, env, t1);
    var a2 := Handle(a1.node, key, false, env, Timer(t1));
    var name := ma.peer.payload.name;
    var rec := Inserted(a1.node.peer.payload, t1.now);
    NoneFreshLater(env.store, name, t1.now, t2.now);
    FindFreshAfterInsert(env.store, rec, name, t2.now);
    assert a2.env.store[FindFresh(a2.env.store, name, t2.now).value] == rec;
    SlaveAdopts(sl, key, a2.env, t2);
    SyncOnStoredNumber(sl.work, k, i);
  }
}

=== FILE: values.dfy ===
/**
 * JavaScript scalar values as they occur in task ids and heartbeat identifiers,
 * with the two comparisons the JavaScript code uses on them: strict `===` (structural
 * equality of `Value`) and abstract `==` (`LooseEquals`).
 *
 * The heartbeat schema declares `identifier` as a String, so a numeric task id
 * comes back from the store as its decimal spelling; `NumberToString` models
 * that cast and `StringToNumber` the conversion `==` applies when it compares a
 * number with a string.
 */
module Values {
  import opened Wrappers

  datatype Value = Null | Undefined | Num(n: int) | Str(s: string)

  predicate IsNullish(v: Value) {
    v.Null? || v.Undefined?
  }

  predicate IsDigit(c: char) {
    '0' <= c <= '9'
  }

  predicate AllDigits(s: string) {
    forall i :: 0 <= i < |s| ==> IsDigit(s[i])
  }

  function DigitChar(d: nat): (c: char)
    requires d < 10
    ensures IsDigit(c) && c as int - '0' as int == d
  {
    ('0' as int + d) as char
  }

  /** The value of a string of decimal digits, read most significant first. */
  function DecimalValue(s: string): nat
    requires AllDigits(s)
  {
    if |s| == 0 then 0
    else DecimalValue(s[..|s| - 1]) * 10 + (s[|s| - 1] as int - '0' as int)
  }

  /** Decimal spelling of a natural number, without leading zeros. */
  function NatToString(n: nat): (s: string)
    ensures |s| > 0
    decreases n
  {
    if n < 10 then [DigitChar(n)] else NatToString(n / 10) + [DigitChar(n % 10)]
  }

  /** `String(n)` for an integral number. */
  function NumberToString(n: int): string {
    if n < 0 then "-" + NatToString(-n) else NatToString(n)
  }

  /**
   * `ToNumber` on a string, for the spellings this model covers: the empty
   * string is 0, otherwise an optional sign followed by decimal digits.
   * Every other spelling is NaN here.
   */
  function StringToNumber(s: string): Option<int> {
    if |s| == 0 then Some(0)
    else if s[0] == '-' && |s| > 1 && AllDigits(s[1..]) then Some(-(DecimalValue(s[1..]) as int))
    else if s[0] == '+' && |s| > 1 && AllDigits(s[1..]) then Some(DecimalValue(s[1..]))
    else if AllDigits(s) then Some(DecimalValue(s))
    else None
  }

  /** The values JavaScript treats as false in a boolean context. */
  predicate IsFalsy(v: Value) {
    v == Null || v == Undefined || v == Num(0) || v == Str("")
  }

  /** Abstract equality `a == b` of JavaScript restricted to `Value`. */
  predicate LooseEquals(a: Value, b: Value) {
    match (a, b)
    case (Num(x), Num(y)) => x == y
    case (Str(x), Str(y)) => x == y
    case (Num(x), Str(y)) => StringToNumber(y) == Some(x)
    case (Str(x), Num(y)) => StringToNumber(x) == Some(y)
    case _ => IsNullish(a) && IsNullish(b)
  }

  /**
   * The stored form of an identifier, as a record read back from the store
   * carries it: the schema casts numbers to strings, and the driver writes an
   * `undefined` field as null. Strings and null are stored as they are.
   */
  function StoredIdentifier(v: Value): (r: Value)
    ensures v.Num? ==> r.Str? && StringToNumber(r.s) == Some(v.n)
    ensures IsNullish(v) <==> r == Null
    ensures v.Str? || v.Null? ==> r == v
    ensures r != Undefined
  {
    match v
    case Num(n) => NumberSpellingRoundTrip(n); Str(NumberToString(n))
    case Undefined => Null
    case _ => v
  }

  lemma {:induction false} NatSpellingRoundTrip(n: nat)
    ensures AllDigits(NatToString(n))
    ensures DecimalValue(NatToString(n)) == n
    decreases n
  {
    var s := NatToString(n);
    if n >= 10 {
      NatSpellingRoundTrip(n / 10);
      assert s[..|s| - 1] == NatToString(n / 10);
      assert s[|s| - 1] == DigitChar(n % 10);
    }
  }

  /** Reading back the decimal spelling of a number gives the number. */
  lemma NumberSpellingRoundTrip(n: int)
    ensures StringToNumber(NumberToString(n)) == Some(n)
  {
    if n < 0 {
      var t := NatToString(-n);
      NatSpellingRoundTrip(-n);
      assert NumberToString(n)[1..] == t;
    } else {
      NatSpellingRoundTrip(n);
      assert IsDigit(NatToString(n)[0]);
    }
  }

  /**
   * A number loosely equals the stored (string) form of a number exactly when
   * the two numbers are equal: the reason a stored identifier still finds the
   * numeric task id it came from.
   */
  lemma NumberMatchesStoredForm(m: int, n: int)
    ensures LooseEquals(Num(m), StoredIdentifier(Num(n))) <==> m == n
  {
    NumberSpellingRoundTrip(n);
  }
}

=== FILE: workqueue.dfy ===
/**
 * The work-queue coordinator of the managed failover: an ordered backlog of
 * `{id, task}` items, the drain lock, and the `master` flag kept by the
 * `statechange` handler.
 *
 * The drain runs asynchronously: `work()` pops the head and hands it to the
 * worker, and the loop resumes when the worker settles. `Coordinator.drain`
 * is that loop's position: `Idle` (lock free) or `Busy` with the item in the
 * worker's hands (lock held). `Work` is the call, `Settle` one settlement;
 * `Drain` runs the loop over a script of settlements.
 */
module WorkQueue {
  import opened Wrappers
  import opened Values
  import opened Election

  /** A task is a plain object: field names to values. */
  type Task = map<string, Value>

  /** The `key` option: a field name or an extraction function. */
  datatype Key = Field(name: string) | Extractor(f: Task -> Value)

  /** The id of a task: the key function applied to it, or the named field; a missing field is `undefined`. */
  function KeyOf(key: Key, task: Task): (id: Value)
    ensures key.Field? && key.name !in task ==> id == Undefined
    ensures key.Field? && key.name in task ==> id == task[key.name]
    ensures key.Extractor? ==> id == key.f(task)
  {
    match key
    case Field(n) => if n in task then task[n] else Undefined
    case Extractor(f) => f(task)
  }

  datatype Item = Item(id: Value, task: Task)

  datatype Loop = Idle | Busy(inFlight: Item)

  datatype Coordinator = Coordinator(queue: seq<Item>, drain: Loop, master: bool)

  /** `workLock`. */
  predicate Locked(c: Coordinator) {
    c.drain.Busy?
  }

  /** The coordinator as constructed: empty backlog, lock free, not master. */
  const Initial: Coordinator := Coordinator([], Idle, false)

  /** Every item the coordinator still answers for, in order: the one in the worker's hands, then the queue. */
  function Backlog(c: Coordinator): seq<Item> {
    (if c.drain.Busy? then [c.drain.inFlight] else []) + c.queue
  }

  /**
   * `work()`: a no-op while the lock is held; otherwise take the lock and
   * hand the head item to the worker (an empty queue releases it again).
   * Nothing is lost or reordered.
   */
  function Work(c: Coordinator): (r: Coordinator)
    ensures Backlog(r) == Backlog(c) && r.master == c.master
    ensures Locked(c) ==> r == c
    ensures !Locked(c) ==> (Locked(r) <==> |c.queue| > 0)
    ensures !Locked(c) && |c.queue| > 0 ==> r.drain.inFlight == c.queue[0]
  {
    if Locked(c) || |c.queue| == 0 then c
    else Coordinator(c.queue[1..], Busy(c.queue[0]), c.master)
  }

  /**
   * `submitWork(task)`: the backlog gains exactly one item, `{key(task), task}`,
   * at its tail, and nothing else in it changes; a drain is triggered only
   * when the peer is master.
   */
  function SubmitWork(c: Coordinator, key: Key, task: Task): (r: Coordinator)
    ensures Backlog(r) == Backlog(c) + [Item(KeyOf(key, task), task)]
    ensures r.master == c.master
    ensures Locked(r) <==> Locked(c) || c.master
    ensures !c.master ==> r == c.(queue := c.queue + [Item(KeyOf(key, task), task)])
  {
    var appended := c.(queue := c.queue + [Item(KeyOf(key, task), task)]);
    if c.master then Work(appended) else appended
  }

  /**
   * How the worker call for the in-flight item ends: its promise resolves
   * with a boolean or rejects, or the call throws (or returns something
   * without a `then`), which throws out of the drain's generator.
   */
  datatype WorkerOutcome = Done(success: bool) | Failed(fault: Fault) | Threw(fault: Fault)

  /** Whether the in-flight item leaves the backlog: it was done, or the drain died holding it. */
  predicate Removes(o: WorkerOutcome) {
    o == Done(true) || o.Threw?
  }

  /** A settlement's effect: the coordinator after it, and the id passed to `synchronize`, if any. */
  datatype Settled = Settled(coordinator: Coordinator, synchronized: Option<Value>)

  /** Whether the drain continues after this settlement. */
  predicate Completes(c: Coordinator, o: WorkerOutcome) {
    o == Done(true) && c.master
  }

  /** Whether the in-flight item is lost: done after the peer lost `master`, or the drain died holding it. */
  predicate Drops(o: WorkerOutcome, master: bool) {
    o.Threw? || (o == Done(true) && !master)
  }

  /**
   * The drain loop resuming after the worker settles for the in-flight item.
   * False or a rejection puts the item back at the head and stops. True
   * while no longer master stops and drops the item, without `synchronize`.
   * True while master passes the item's id to `synchronize` and continues
   * with the next head item, if any. A throwing call ends the generator
   * after the item was taken off the queue; `co`'s catch only logs and the
   * lock is released, so the item is lost.
   */
  function Settle(c: Coordinator, o: WorkerOutcome): (s: Settled)
    requires Locked(c)
    ensures s.coordinator.master == c.master
    ensures !Completes(c, o) ==> !Locked(s.coordinator) && s.synchronized.None?
    ensures !Removes(o) ==> Backlog(s.coordinator) == Backlog(c)
    ensures Removes(o) ==> Backlog(s.coordinator) == Backlog(c)[1..]
    ensures Completes(c, o) ==> s.synchronized == Some(c.drain.inFlight.id)
    ensures Completes(c, o) ==> (Locked(s.coordinator) <==> |c.queue| > 0)
  {
    var item := c.drain.inFlight;
    match o
    case Failed(_) => Settled(Coordinator([item] + c.queue, Idle, c.master), None)
    case Done(false) => Settled(Coordinator([item] + c.queue, Idle, c.master), None)
    case Threw(_) => Settled(Coordinator(c.queue, Idle, c.master), None)
    case Done(true) =>
      if !c.master then Settled(Coordinator(c.queue, Idle, c.master), None)
      else Settled(Work(Coordinator(c.queue, Idle, c.master)), Some(item.id))
  }

  /** The `statechange` handler: only the flag changes; no drain is started. */
  function OnStateChange(c: Coordinator, to: StateName): (r: Coordinator)
    ensures r.master <==> to == Master
    ensures r.queue == c.queue && r.drain == c.drain
  {
    c.(master := to == Master)
  }

  /** The index of the first item whose id is loosely equal to `id`. */
  function FirstMatch(q: seq<Item>, id: Value): (i: Option<nat>)
    ensures i.Some? ==> i.value < |q| && LooseEquals(q[i.value].id, id)
    ensures i.Some? ==> forall j :: 0 <= j < i.value ==> !LooseEquals(q[j].id, id)
    ensures i.None? <==> forall j :: 0 <= j < |q| ==> !LooseEquals(q[j].id, id)
  {
    if |q| == 0 then None
    else if LooseEquals(q[0].id, id) then Some(0)
    else
      match FirstMatch(q[1..], id)
      case None => None
      case Some(k) => Some(k + 1)
  }

  /**
   * `sync(id)`, the `synchronize` handler: ignored while master and for a
   * null id; otherwise the queue loses the prefix up to and including the
   * first item whose id is loosely equal to `id`, and is unchanged when
   * there is none. The rest keeps its order.
   */
  function Sync(c: Coordinator, id: Value): (r: Coordinator)
    ensures r.master == c.master && r.drain == c.drain
    ensures c.master || id == Null ==> r == c
    ensures !c.master && id != Null ==>
      if exists j :: 0 <= j < |c.queue| && LooseEquals(c.queue[j].id, id) then
        exists i :: 0 <= i < |c.queue| && r.queue == c.queue[i + 1..]
          && LooseEquals(c.queue[i].id, id)
          && forall j :: 0 <= j < i ==> !LooseEquals(c.queue[j].id, id)
      else
        r == c
  {
    if c.master || id == Null then c
    else
      match FirstMatch(c.queue, id)
      case None => c
      case Some(i) => c.(queue := c.queue[i + 1..])
  }

  /** The handlers of the managed failover, run in emission order. */
  function Deliver(c: Coordinator, events: seq<Event>): (r: Coordinator)
    ensures r.drain == c.drain
    decreases |events|
  {
    if |events| == 0 then c
    else
      var c1 := match events[0]
        case StateChange(_, to) => OnStateChange(c, to)
        case Synchronize(id) => Sync(c, id)
        case _ => c;
      Deliver(c1, events[1..])
  }

  /** Delivering `a` and then `b` is delivering `a + b`. */
  lemma {:induction false} DeliverAppend(c: Coordinator, a: seq<Event>, b: seq<Event>)
    ensures Deliver(c, a + b) == Deliver(Deliver(c, a), b)
    decreases |a|
  {
    if |a| == 0 {
      assert a + b == b;
    } else {
      assert (a + b)[0] == a[0];
      assert (a + b)[1..] == a[1..] + b;
      var c1 := match a[0]
        case StateChange(_, to) => OnStateChange(c, to)
        case Synchronize(id) => Sync(c, id)
        case _ => c;
      DeliverAppend(c1, a[1..], b);
    }
  }

  /** `synchronize` events alone never change the `master` flag. */
  lemma {:induction false} SyncsKeepFlag(c: Coordinator, events: seq<Event>)
    requires forall e :: e in events ==> e.Synchronize?
    ensures Deliver(c, events).master == c.master
    decreases |events|
  {
    if |events| > 0 {
      assert events[0] in events;
      assert forall e :: e in events[1..] ==> e in events;
      SyncsKeepFlag(Sync(c, events[0].id), events[1..]);
    }
  }

  /**
   * Repeating `sync(id)` after it pruned is a no-op when no two queued items
   * are loosely equal to `id`: the only match went with the pruned prefix.
   */
  lemma SyncIdempotent(c: Coordinator, id: Value)
    requires forall i, j :: 0 <= i < j < |c.queue| && LooseEquals(c.queue[i].id, id) ==> !LooseEquals(c.queue[j].id, id)
    ensures Sync(Sync(c, id), id) == Sync(c, id)
  {
    if !c.master && id != Null {
      match FirstMatch(c.queue, id)
      case None =>
      case Some(i) =>
        var r := c.queue[i + 1..];
        forall k | 0 <= k < |r|
          ensures !LooseEquals(r[k].id, id)
        {
          assert r[k] == c.queue[i + 1 + k];
        }
    }
  }

  /**
   * On a slave, for a non-null id, two queued items loosely equal to `id`
   * make a second `sync(id)` prune again: the later match survives the first
   * pruning.
   */
  lemma SyncPrunesAgainOnDuplicates(c: Coordinator, id: Value, i: nat, j: nat)
    requires !c.master && id != Null
    requires i < j < |c.queue|
    requires LooseEquals(c.queue[i].id, id) && LooseEquals(c.queue[j].id, id)
    ensures |Sync(Sync(c, id), id).queue| < |Sync(c, id).queue|
  {
    var f := FirstMatch(c.queue, id);
    assert f.Some? && f.value <= i;
    var q := c.queue[f.value + 1..];
    assert q[j - f.value - 1] == c.queue[j];
    assert FirstMatch(q, id).Some?;
  }

  /** On a slave, `sync(c.id)` on the backlog `[a, b, c, d]` leaves `[d]`. */
  lemma SyncExample(a: Item, b: Item, c: Item, d: Item)
    requires a.id == Num(1) && b.id == Num(2) && c.id == Num(3) && d.id == Num(4)
    ensures Sync(Coordinator([a, b, c, d], Idle, false), c.id).queue == [d]
    ensures Sync(Coordinator([a, b, c, d], Idle, true), c.id).queue == [a, b, c, d]
    ensures Sync(Coordinator([a, b, c, d], Idle, false), Null).queue == [a, b, c, d]
  {
    var q := [a, b, c, d];
    assert !LooseEquals(q[0].id, c.id) && !LooseEquals(q[1].id, c.id) && LooseEquals(q[2].id, c.id);
    assert FirstMatch(q, c.id) == Some(2);
  }

  /** One resumption of the drain loop: what was submitted while the worker ran, the flag when it settled, and how it settled. */
  datatype DrainStep = DrainStep(arrivals: seq<Item>, master: bool, outcome: WorkerOutcome)

  /** Everything submitted during the given steps, in submission order. */
  function Arrivals(script: seq<DrainStep>): seq<Item>
    decreases |script|
  {
    if |script| == 0 then [] else Arrivals(script[..|script| - 1]) + script[|script| - 1].arrivals
  }

  /** One more step's arrivals join the tail of everything submitted so far. */
  lemma ArrivalsExtend(q: seq<Item>, script: seq<DrainStep>, n: nat)
    requires n < |script|
    ensures q + Arrivals(script[..n + 1]) == (q + Arrivals(script[..n])) + script[n].arrivals
  {
    assert script[..n + 1][..n] == script[..n];
  }

  /** The ids of `items`, in order. */
  function Ids(items: seq<Item>): (ids: seq<Value>)
    ensures |ids| == |items|
    ensures forall k :: 0 <= k < |items| ==> ids[k] == items[k].id
  {
    seq(|items|, k requires 0 <= k < |items| => items[k].id)
  }

  /** The drain loop's state between resumptions. */
  datatype DrainState = DrainState(r: Coordinator, dispatched: seq<Item>, completed: seq<Value>, dropped: bool)

  /**
   * What the drain has done, measured against `all`, the backlog at the
   * `work()` call followed by everything submitted since.
   */
  ghost predicate DrainInv(all: seq<Item>, st: DrainState) {
    && |st.dispatched| <= |all| && st.dispatched == all[..|st.dispatched|]
    && |st.dispatched| - 1 <= |st.completed| <= |st.dispatched|
    && st.completed == Ids(st.dispatched[..|st.completed|])
    && |st.completed| + (if st.dropped then 1 else 0) <= |all|
    && Backlog(st.r) == all[|st.completed| + (if st.dropped then 1 else 0)..]
    && (Locked(st.r) ==> !st.dropped && |st.completed| + 1 == |st.dispatched|
                         && st.r.drain.inFlight == st.dispatched[|st.dispatched| - 1])
  }

  /** One resumption: the arrivals join the queue, the flag is current, the worker's settlement is handled. */
  function Resume(st: DrainState, step: DrainStep): DrainState
    requires Locked(st.r)
  {
    var before := st.r.(queue := st.r.queue + step.arrivals, master := step.master);
    var s := Settle(before, step.outcome);
    var completed := if s.synchronized.Some? then st.completed + [s.synchronized.value] else st.completed;
    var dispatched := if Locked(s.coordinator) then st.dispatched + [s.coordinator.drain.inFlight] else st.dispatched;
    DrainState(s.coordinator, dispatched, completed, Drops(step.outcome, step.master))
  }

  /** The loop's state right after `work()`: the head item, if any, is in the worker's hands. */
  function Begin(c: Coordinator): DrainState
    requires !Locked(c)
  {
    DrainState(Work(c), if |c.queue| > 0 then [c.queue[0]] else [], [], false)
  }

  lemma BeginInv(c: Coordinator)
    requires !Locked(c)
    ensures DrainInv(c.queue, Begin(c))
  {
  }

  lemma IdsExtend(items: seq<Item>, x: Item)
    ensures Ids(items + [x]) == Ids(items) + [x.id]
  {
  }

  /** The completed item's id joins `completed`, and the backlog starts after it. */
  lemma CompletingFacts(all: seq<Item>, st: DrainState, step: DrainStep)
    requires DrainInv(all, st) && Locked(st.r)
    requires step.outcome == Done(true) && step.master
    ensures var all' := all + step.arrivals;
      var k := |st.completed|;
      var rest := st.r.queue + step.arrivals;
      var next := Resume(st, step);
      && |st.dispatched| == k + 1
      && st.dispatched == all'[..k + 1]
      && next.completed == Ids(st.dispatched)
      && Backlog(next.r) == rest == all'[k + 1..]
      && !next.dropped
      && (Locked(next.r) <==> |rest| > 0)
      && (|rest| > 0 ==> next.dispatched == st.dispatched + [rest[0]] && next.r.drain.inFlight == rest[0])
      && (|rest| == 0 ==> next.dispatched == st.dispatched)
  {
    var all' := all + step.arrivals;
    var k := |st.completed|;
    var item := st.r.drain.inFlight;
    var rest := st.r.queue + step.arrivals;
    assert [item] + rest == all'[k..];
    assert st.dispatched == all'[..k + 1];
    assert st.dispatched[..k] + [item] == st.dispatched;
    IdsExtend(st.dispatched[..k], item);
  }

  /** A settlement that completes: the head of the remaining sequence is done, the next one dispatched. */
  lemma ResumeCompletingKeepsInv(all: seq<Item>, st: DrainState, step: DrainStep)
    requires DrainInv(all, st) && Locked(st.r)
    requires step.outcome == Done(true) && step.master
    ensures DrainInv(all + step.arrivals, Resume(st, step))
  {
    CompletingFacts(all, st, step);
    var all' := all + step.arrivals;
    var k := |st.completed|;
    var rest := st.r.queue + step.arrivals;
    var next := Resume(st, step);
    if |rest| > 0 {
      assert all'[k + 1..][0] == rest[0];
      assert all'[..k + 2] == all'[..k + 1] + [all'[k + 1]];
      assert next.dispatched[..k + 1] == st.dispatched;
    }
  }

  /** A settlement that stops the drain: nothing completes, and the item is back at the head or dropped. */
  lemma ResumeStoppingKeepsInv(all: seq<Item>, st: DrainState, step: DrainStep)
    requires DrainInv(all, st) && Locked(st.r)
    requires !(step.outcome == Done(true) && step.master)
    ensures DrainInv(all + step.arrivals, Resume(st, step))
  {
    var all' := all + step.arrivals;
    var before := st.r.(queue := st.r.queue + step.arrivals, master := step.master);
    assert Backlog(before) == all'[|st.completed|..];
    assert st.dispatched == all'[..|st.dispatched|];
  }

  /** One resumption of the drain loop, keeping `DrainInv` against the backlog grown by the arrivals. */
  method ResumeDrain(ghost all: seq<Item>, st: DrainState, step: DrainStep) returns (next: DrainState)
    requires DrainInv(all, st) && Locked(st.r)
    ensures DrainInv(all + step.arrivals, next)
    ensures next.r.master == step.master
    ensures next.dropped <==> Drops(step.outcome, step.master)
    ensures |next.dispatched| == |st.dispatched| + (if Locked(next.r) then 1 else 0)
    ensures Locked(next.r) ==> step.outcome == Done(true) && step.master
    ensures |next.completed| == |st.completed| + (if step.outcome == Done(true) && step.master then 1 else 0)
    ensures step.outcome == Done(true) && step.master && !Locked(next.r) ==> next.r.queue == []
  {
    next := Resume(st, step);
    if step.outcome == Done(true) && step.master {
      ResumeCompletingKeepsInv(all, st, step);
    } else {
      ResumeStoppingKeepsInv(all, st, step);
    }
  }

  /**
   * `work()` and the drain loop it starts, over a script of worker
   * settlements; it stops when the lock is released or the script runs out
   * with an item still in the worker's hands. Items go to the worker strictly
   * from the head in submission order, including items submitted mid-drain
   * (`dispatched` is a prefix of the backlog followed by all arrivals). The
   * completed items are exactly the dispatched ones minus at most the last,
   * and their ids are what was passed to `synchronize`. What remains is the
   * rest of that sequence: from the first uncompleted item, or after it when
   * it was dropped. Every resumption but one that releases the lock hands
   * out the next item, so the drain only stops after a completion once the
   * queue is empty.
   */
  method Drain(c: Coordinator, script: seq<DrainStep>)
    returns (r: Coordinator, dispatched: seq<Item>, completed: seq<Value>, used: nat, dropped: bool)
    ensures Locked(c) ==> r == c && dispatched == [] && completed == [] && used == 0
    ensures used <= |script|
    ensures !Locked(c) ==> DrainInv(c.queue + Arrivals(script[..used]), DrainState(r, dispatched, completed, dropped))
    ensures !Locked(c) && Locked(r) ==> used == |script|
    ensures dropped ==> used > 0 && Drops(script[used - 1].outcome, script[used - 1].master)
    ensures used > 0 ==> (dropped <==> Drops(script[used - 1].outcome, script[used - 1].master))
    ensures used > 0 ==> r.master == script[used - 1].master
    ensures !Locked(c) ==> |dispatched| == used + (if Locked(r) then 1 else 0)
    ensures !Locked(c) && !Locked(r) && used > 0 && script[used - 1].outcome == Done(true) && script[used - 1].master ==>
      r.queue == []
    ensures forall k :: 0 <= k < used - 1 ==> script[k].outcome == Done(true) && script[k].master
    ensures !Locked(c) ==>
      |completed| == used - (if used > 0 && !(script[used - 1].outcome == Done(true) && script[used - 1].master) then 1 else 0)
  {
    r, dispatched, completed, used, dropped := c, [], [], 0, false;
    if Locked(c) {
      return;
    }
    var st := Begin(c);
    ghost var all := c.queue;
    BeginInv(c);
    assert Arrivals(script[..0]) == [];
    while used < |script| && Locked(st.r)
      invariant used <= |script|
      invariant all == c.queue + Arrivals(script[..used])
      invariant DrainInv(all, st)
      invariant st.dropped ==> used > 0 && Drops(script[used - 1].outcome, script[used - 1].master)
      invariant used > 0 ==> (st.dropped <==> Drops(script[used - 1].outcome, script[used - 1].master))
      invariant used > 0 ==> st.r.master == script[used - 1].master
      invariant |st.dispatched| == used + (if Locked(st.r) then 1 else 0)
      invariant !Locked(st.r) && used > 0 && script[used - 1].outcome == Done(true) && script[used - 1].master ==>
        st.r.queue == []
      invariant forall k :: 0 <= k < used - 1 ==> script[k].outcome == Done(true) && script[k].master
      invariant Locked(st.r) && used > 0 ==> script[used - 1].outcome == Done(true) && script[used - 1].master
      invariant |st.completed| == used - (if used > 0 && !(script[used - 1].outcome == Done(true) && script[used - 1].master) then 1 else 0)
      decreases |script| - used
    {
      ArrivalsExtend(c.queue, script, used);
      st := ResumeDrain(all, st, script[used]);
      all := all + script[used].arrivals;
      used := used + 1;
    }
    r, dispatched, completed, dropped := st.r, st.dispatched, st.completed, st.dropped;
  }
}

=== FILE: wrappers.dfy ===
/** The optional value used wherever the JavaScript code has `null`/`undefined` or "not found". */
module Wrappers {

  datatype Option<+T> = None | Some(value: T)
}
